=== FILE: README.md ===
# Minesweeper game logic in Dafny

This project models the game logic of two independent Minesweeper front
ends and proves properties of it:

- `game.py`, a pygame program: board generation (`create_board`), the
  recursive flood-fill reveal (`adjacent_reveal`), the win check
  (`check_win`), and the transitions of the event loop in `main` (menu keys,
  left and right clicks, restart, the "Mines Left" figure);
- `script.js`, a browser page: `setDifficulty`, `createBoard`, `placeMines`,
  `calculateAdjacent`, `handleReveal`, `handleFlag`, `endGame`,
  `revealAllMines`, `checkWin`, `startGame` and the counter it displays.

The two are modelled separately, because they disagree: `check_win` wins as
soon as every safe cell is revealed, while `checkWin` compares two counters
and also demands as many flags as mines.

Files:

- `grid.dfy` (module `Grid`): positions, the 3x3 window, the three difficulty
  presets both front ends share, the reference mine count `MinesNear`, the
  cell sets every counter is the size of (`Cells`), and `DrawDistinct`, the
  rejection-sampling loop both front ends use to pick distinct mines.
- `sweeper.dfy` (module `Sweeper`): the board and state of `game.py`.
- `session.dfy` (module `Session`): one round of `main` as a state record and
  a `Step` function from one event to the next state.
- `web.dfy` (module `Web`): the page state of `script.js` as a `Game` record,
  with the counters `revealedCount` and `flaggedCount` and the end state.
- `wrappers.dfy` (module `Wrappers`): `Option`.

Representation choices:

- The lists of lists (`board`, `state`) and the array of cell records become
  maps keyed by `Pos(r, c)` whose keys are exactly the `rows x cols`
  rectangle (`Framed`). Indexing out of that rectangle is therefore a
  precondition failure, and the model makes every such guard explicit.
- Each count in the source is the size of a set of cells:
  - "mines", `sum(row.count(FLAGGED) ...)`, `flaggedCount` and
    `revealedCount` are compared with `|Cells(g, f)|`;
  - the neighbour count is compared with `|MinesNear(mines, p)|`.
- The random number generators become a sequence of samples passed in.
  `DrawDistinct` collects distinct samples until it has enough. A sample
  stream that runs dry stands for the source's loop running on.
- The pixel coordinates of a click are integers. A key press is its
  character.
- The recursive JavaScript reveal mutates shared state, so it is modelled
  with methods. `HandleReveal`, `RevealSafe` and `RevealNeighbours` are
  mutually recursive and decrease on the number of unrevealed cells, exactly
  as the source's recursion does. `adjacent_reveal` mutates `state` in
  place too (game.py:83), but the model passes the view as a value and
  returns the new one, so the Python reveal is a pair of recursive
  functions (`Reveal`, `RevealAround`) that decrease on the number of
  hidden cells.

Where the code and its description disagree, the model follows the code:

- `handleReveal` counts the clicked mine in `revealedCount`, because the
  increment at line 114 comes before the mine test at line 117. Only the
  other mines, revealed by `revealAllMines`, are not counted.
- `revealAllMines` reveals flagged mines too, so after a loss a cell can be
  both revealed and flagged.
- `setDifficulty` leaves the previous dimensions for an unknown level. The
  `game.py` reset, by contrast, treats every level other than "easy" and
  "medium" as hard.

## Model

| member | source | states |
|---|---|---|
| Grid.Shift | script.js:125-128 | the k-th of the nine window offsets lands in the 3x3 window, and on the centre exactly for the middle offset |
| Grid.OffsetIndex | game.py:85-87 | every cell of the window is reached by exactly one offset index, the inverse of Shift |
| Grid.ShiftRoundTrip | script.js:125-128 | recovering the index from the shifted cell gives back the index |
| Grid.MinesNearAtMostEight | game.py:42-51 | a safe cell has at most eight mines in its window |
| Grid.AllCellsSize | game.py:34 | a rows x cols grid has rows * cols cells |
| Grid.DrawDistinct | game.py:35-38 | the loop returns the distinct samples it consumed; it stops as soon as it has `count` of them, and it reaches `count` whenever the stream holds that many distinct values |
| Sweeper.Layout | game.py:33-52 | the intended board: framed, the sentinel exactly on the mines, every other cell holding its window count, which lies in 0..8 |
| Sweeper.LayoutCountsInRange | game.py:42-51 | every safe cell's window count lies in 0..8 |
| Sweeper.CountNear | game.py:46-50 | the clipped double loop counts exactly the mines of the window |
| Sweeper.ScanRow | game.py:48-50 | one row of the window scan adds exactly that row's window mines |
| Sweeper.Marked | game.py:34-40 | the zero board with the sentinel on the drawn positions has exactly those mines |
| Sweeper.CreateBoard | game.py:33-52 | the board is rows x cols and has exactly `mines_count` mines; they are exactly the distinct positions among the draws the loop consumed, and it stopped at the first draw that completed the set; the board is the reference layout of those mines, so each safe cell holds its window count, in 0..8 |
| Sweeper.FillCounts | game.py:42-51 | the counting pass turns the marked board into Layout |
| Sweeper.FillRow | game.py:43-51 | one row of the counting pass keeps the mines and counts that row's safe cells |
| Sweeper.FilledIsLayout | game.py:42-51 | a board with the mines in place and every safe cell counted is Layout |
| Sweeper.Reveal | game.py:78-89 | off the grid or on a revealed or flagged cell nothing changes; otherwise the target ends revealed and the only changes are hidden cells becoming revealed |
| Sweeper.RevealAround | game.py:85-89 | the neighbour loop only turns hidden cells into revealed ones |
| Sweeper.RevealClosed | game.py:84-89 | completeness: no zero cell the reveal uncovered is left with a hidden neighbour |
| Sweeper.AroundClosed | game.py:85-89 | the neighbour loop keeps the reveal closed |
| Sweeper.AroundUncoversWindow | game.py:85-89 | after the neighbour loop no in-grid neighbour of the centre is hidden |
| Sweeper.RevealSpreadsFromZeros | game.py:83-89 | soundness: every cell the reveal uncovers is reached from the target along a path of neighbouring cells whose every cell but the last is a zero cell the same reveal uncovered, so the cascade stays inside the target's connected zero region and its border |
| Sweeper.AroundSpreadsFromZeros | game.py:85-89 | every cell the neighbour loop uncovers is reached along such a zero path starting at a cell of the window |
| Sweeper.ClosedTrans | game.py:89 | two closed reveal phases in a row make a closed reveal |
| Sweeper.ZeroHasNoMineNear | game.py:42-51 | on a correctly counted board a zero cell has no mine in its window |
| Sweeper.CascadeNeverUncoversMine | game.py:84-89 | on a correctly counted board, a cascade started on a safe cell never uncovers a mine |
| Sweeper.CheckWin | game.py:91-96 | true exactly when every safe cell is revealed; flags and mine cells do not matter |
| Sweeper.ShowMines | game.py:200-203 | the revealed cells become the old ones plus every mine; safe cells keep their state |
| Sweeper.ToggleFlag | game.py:210-214 | hidden and flagged swap; revealed stays revealed; no other cell changes |
| Sweeper.ToggleTwice | game.py:210-214 | two toggles restore the state |
| Sweeper.MinesLeft | game.py:168-169 | the figure never exceeds the mine count, equals it exactly when no cell is flagged, and is at least the mine count less the number of cells |
| Sweeper.ToggleMovesMinesLeft | game.py:168-169 | placing a flag lowers the counter by one, removing one raises it, a revealed cell leaves it alone |
| Sweeper.MinesLeftRange | game.py:168-169 | the unclamped counter lies between the mine count less the cell count and the mine count |
| Session.Preset | game.py:112-117 | "easy" gives 9x9/10, "medium" 16x16/40, every other level 24x24/99; each is square and playable |
| Session.TileSize | game.py:118 | the tile side is the largest with cols tiles fitting in the 600-pixel width |
| Session.PresetsFit | game.py:6 | every preset's grid fits in the board area |
| Session.TileInRange | game.py:193-194 | the floor-divided coordinate is a valid index exactly when the pixel lies inside the tiled area |
| Session.MenuKey | game.py:143-158 | keys 1, 2 and 3 select easy, medium and hard; every other key selects nothing |
| Session.MenuKeysDistinct | game.py:144-158 | the three menu keys lead to three different presets |
| Session.ClickCellAsWritten | game.py:193-194 | the floor-divided pixel gives the tile whose square holds it, with no bound on the result |
| Session.ClickOffBoard | game.py:191-197 | in a medium game x = 595 gives column 16, and in an easy game y = 597 gives row 9, both off the grid |
| Session.ClickCell | game.py:189-197 | the corrected mapping: a tile of the grid, equal to the as-written one, exactly when the pixel lies on the tiled area; otherwise nothing |
| Session.AllHidden | game.py:120 | every cell of the fresh state is hidden |
| Session.Fresh | game.py:110-122 | a fresh round has the drawn mines, a correctly counted board, every cell hidden and neither end flag set |
| Session.LeftClick | game.py:196-208 | a non-hidden cell is untouched; a hidden mine shows every mine and loses; a hidden safe cell is revealed, only hidden cells become revealed, the cascade is complete (no uncovered zero keeps a hidden neighbour) and sound (every uncovered cell is reached from the clicked cell along a path of uncovered zero cells), and the round is won exactly when the board is cleared |
| Session.Click | game.py:196-214 | button 1 is the left click; button 3 toggles the flag and keeps the end flags; buttons other than 1 and 3 change nothing |
| Session.Step | game.py:178-214 | one event keeps the board framed and the level, and Quit, and only Quit, stops the loop |
| Session.FreshConsistent | game.py:110-122 | a fresh round is consistent |
| Session.ToggleKeepsRevealed | game.py:210-214 | a toggle changes neither the revealed cells nor the cleared verdict |
| Session.RevealKeepsMinesHidden | game.py:206 | a reveal from a safe cell of a correctly counted board leaves every mine hidden |
| Session.ClickConsistent | game.py:196-214 | a click keeps a running round consistent |
| Session.StepConsistent | game.py:178-214 | every event keeps a round consistent: the win flag tracks the cleared board, a loss shows every mine, and lost and won exclude each other |
| Session.TerminalFreezes | game.py:182-187 | once lost or won, no event but R changes the board, the state or the end flags |
| Session.RestartAfterEnd | game.py:183-186 | R after the end starts a fresh round with no cell revealed and neither end flag set |
| Session.LeftClickOnSafe | game.py:205-208 | a left click on a hidden safe cell of a running round reveals it with a complete cascade that reaches every uncovered cell along a path of uncovered zero cells, only reveals, does not lose, and wins exactly when every safe cell is revealed |
| Session.LeftClickOnMine | game.py:197-204 | a left click on a hidden mine loses, reveals every mine and leaves safe cells untouched |
| Session.LeftClickOnShown | game.py:197 | a left click on a revealed or flagged cell changes nothing |
| Session.RightClickTwice | game.py:210-214 | two right clicks on the same pixel of a running round restore the game |
| Session.MinesLeftOf | game.py:168-169 | the figure of a round never exceeds its level's mine count, equals it exactly when no cell is flagged, and is at least the mine count less the number of cells |
| Session.RightClickMovesMinesLeft | game.py:168-169 | a right click moves the mines-left figure down by one on a hidden cell, up by one on a flagged one, and not at all on a revealed one |
| Web.SetDifficulty | script.js:14-25 | the three named levels give 9x9/10, 16x16/40 and 24x24/99; any other level keeps the previous dimensions |
| Web.SetDifficultyIdempotent | script.js:14-25 | choosing the same level twice is choosing it once |
| Web.Blank | script.js:28-43 | a rows x cols board with no mine, no revealed and no flagged cell, every cell unrevealed, and every count zero |
| Web.PosOf | script.js:53-54 | the cell numbered `pos` has a column below `cols` and its row-major number is `pos`; its row is non-negative exactly when `pos` is |
| Web.PosOfInFrame | script.js:52-55 | every number below rows * cols names a cell of the board, and numbering that cell gives the number back |
| Web.IndexOfInRange | script.js:52-55 | every cell has a number below rows * cols that names it |
| Web.PosOfInjective | script.js:52-55 | distinct numbers in range name distinct cells |
| Web.PlaceMines | script.js:46-57 | exactly `totalMines` distinct numbers, namely those among the draws the loop consumed, stopping at the first draw that completed the set; the mine cells grow by exactly the cells they name, and a blank board ends with `totalMines` mines; nothing but mine bits changes |
| Web.MarkMines | script.js:52-56 | the mine cells grow by exactly the cells the numbers name, one cell per distinct number |
| Web.CountAround | script.js:64-79 | the window loop counts exactly the mines of the clipped window |
| Web.WindowRow | script.js:66-77 | one row of the window loop adds exactly that row's window mines |
| Web.MineAt | script.js:69-75 | the bounds-checked test holds exactly for the cells of the board that hold a mine |
| Web.MineAtNear | script.js:69-75 | inside the window, the bounds-checked mine test holds exactly for the window's mines |
| Web.CalculateAdjacent | script.js:60-83 | every safe cell ends with its window count; mines keep their count, and nothing else changes |
| Web.AdjacentRow | script.js:62-81 | one row keeps the mines and extends the counted prefix by that row |
| Web.RevealAllMines | script.js:204-214 | the revealed cells become the old ones plus every mine, and nothing else changes |
| Web.EndGame | script.js:193-201 | the status records the outcome and the counters are kept; a win leaves the board alone; a loss only reveals cells, and the revealed cells become the old ones plus every mine |
| Web.CheckWin | script.js:217-225 | a running game becomes won exactly when both counters reach their targets; otherwise nothing changes |
| Web.HandleReveal | script.js:109-142 | a no-op when over, revealed or flagged; otherwise the cell ends revealed; a mine loses with one more counted reveal and every mine shown; only reveals happen and a finished game is untouched; the game becomes won only with both counters at their targets, and a safe reveal that leaves the game running leaves them off target; a safe zero leaves every in-board neighbour revealed or flagged unless the game ended; the page invariant is kept; on a correctly counted board a safe cell never loses |
| Web.RevealSafe | script.js:123-141 | after a safe reveal only reveals happen; a zero cell leaves every in-board neighbour revealed or flagged unless the game ended; the game becomes won only with both counters at their targets, and if it is still running they are off target; the invariant is kept and, on a correctly counted board, the game is not lost |
| Web.RevealNeighbours | script.js:125-139 | afterwards every in-board neighbour is revealed or flagged, unless the game ended; the invariant is kept; around a correctly counted zero the game is not lost |
| Web.FirstReveal | script.js:113-114 | revealing and counting one cell leaves one unrevealed cell fewer and keeps the invariant, or for a mine the invariant after the loss |
| Web.HandleFlag | script.js:145-159 | a no-op when over or on a revealed cell; otherwise toggles the flag, moves the counter by one the same way, never loses, and wins exactly when the new counters are at their targets |
| Web.FlagKeepsInv | script.js:145-159 | the flag handler keeps the page invariant, so the flag counter keeps counting flagged cells |
| Web.ToggleSets | script.js:149-155 | a toggle moves one cell into or out of the flags and leaves mines and revealed cells alone |
| Web.FlagTwice | script.js:145-159 | two flag clicks restore the board and the flag counter when the first click does not end the game |
| Web.MinesLeft | script.js:163 | under the invariant the figure is the mine count less the flagged cells, and lies between the mine count less the number of cells and the mine count |
| Web.MinesLeftCountsFlags | script.js:163 | under the invariant the displayed figure is the mine count less the flagged cells |
| Web.StartGame | script.js:228-238 | a new game has the chosen dimensions, holds the invariant with counters at zero, is correctly counted and has no revealed or flagged cell |
| Web.WinMeansCleared | script.js:216-225 | in a game not lost, both counters reach their targets exactly when every safe cell is revealed and the flags are exactly the mines |
| Web.ZeroHasNoMineNear | script.js:123-136 | on a correctly counted board a zero cell has no mine in its window |
| Web.ShowsMoreKeeps | script.js:113 | revealing cells moves neither mines nor flags and keeps a correct count correct |

## Left out

- Rendering in both front ends is left out as graphics with no game logic: `draw_board`, `draw_text_center`, the menu drawing, `renderBoard`, `updateCellVisual`, the counter's `textContent`, `setTimeout`/`alert`, and the event listeners.
- The pygame event queue, `display.flip` and `Clock().tick` are left out as I/O. `Session.Step` takes one event at a time.
- `random.randint` and `Math.random` are left out as randomness. The drawn samples are an input, and a stream that runs dry before enough distinct values appear stands for the source's loop running on.
- The `nonlocal` declaration at game.py:111 names variables that `main` never binds, so Python rejects the program. The model gives the intended meaning: a round uses the preset of its level (`Session.Preset`, `Session.TileSize`).
- The `script.js` difficulty menu is HTML outside the script, so its value is an arbitrary string. `Web.StartGame` requires the previous dimensions to be playable; this matters only for an unknown level on the first start.
- The page-level `minePositions` set is left out as a global. `Web.PlaceMines` returns the drawn numbers instead.
- `Session.Step` is a total function of the event, so it does not model the crash of game.py:197 and 211 on a click beside the last tile. It ignores such clicks instead (see Findings).
- Web.HandleReveal: its contract states the cascade one level deep: every in-board neighbour of a revealed safe zero ends revealed or flagged unless the game ended. It does not state the transitive closure, or that nothing outside the target's connected zero region and its border is revealed. Both are proved for the Python reveal (`Sweeper.RevealClosed`, `Sweeper.RevealSpreadsFromZeros`, restated for a click by `Session.LeftClick`).
- Web.RevealSafe: for the same reason its contract states the cascade one level deep (`Settled` around the revealed zero cell), neither its transitive closure nor its confinement to the target's zero region.

## Findings

| source | as written | input that shows it | evidently intended | confidence | as-written member | corrected member |
|---|---|---|---|---|---|---|
| game.py:191-197 | a click's tile is `x // TILE_SIZE`, `y // TILE_SIZE`, checked only against `y >= HEIGHT` | medium level (16 columns of 37 pixels, 592 wide): a click at x = 595 gives column 16; easy level (9 rows of 66 pixels, 594 tall): a click at y = 597 gives row 9; either indexes past the end of the lists at line 197 or 211 | clicks outside the tiled area are ignored | high, not executed | Session.ClickOffBoard | Session.ClickCell |

=== FILE: grid.dfy ===
/** Grid geometry shared by both Minesweeper front ends: cell positions, the
    3x3 window around a cell, the sets of cells whose value has some property
    (every counter of the game is the size of such a set), and the
    rejection-sampling loop both front ends use to choose distinct mines. */
module Grid {

  /** A cell coordinate: row first, then column. */
  datatype Pos = Pos(r: int, c: int)

  /** Board dimensions and mine count of one game. */
  datatype Dims = Dims(rows: int, cols: int, mines: int)

  /** The three difficulty levels both front ends offer. */
  const Easy := Dims(9, 9, 10)
  const Medium := Dims(16, 16, 40)
  const Hard := Dims(24, 24, 99)

  /** The dimensions every difficulty must satisfy: at least one mine and at
      least one safe cell. */
  predicate Playable(d: Dims) {
    0 < d.rows && 0 < d.cols && 0 < d.mines < d.rows * d.cols
  }

  /** A grid is a map from cell positions to cell values. It is framed by
      rows x cols when its cells are exactly those of that rectangle: the
      shape of the lists of lists both front ends build. */
  predicate Framed<T>(g: map<Pos, T>, rows: int, cols: int) {
    g.Keys == AllCells(rows, cols)
  }

  /** `p` lies in the rows x cols rectangle: the bounds test both front ends
      write out before indexing. */
  predicate InFrame(p: Pos, rows: int, cols: int) {
    0 <= p.r < rows && 0 <= p.c < cols
  }

  /** `q` lies in the 3x3 window centred on `p` (the centre included). */
  predicate Near(p: Pos, q: Pos) {
    -1 <= q.r - p.r <= 1 && -1 <= q.c - p.c <= 1
  }

  /** The nine window offsets in row-major order: the order in which both
      front ends visit the neighbours of a cell. Index 4 is the centre. */
  const Offsets: seq<(int, int)> :=
    [(-1, -1), (-1, 0), (-1, 1), (0, -1), (0, 0), (0, 1), (1, -1), (1, 0), (1, 1)]

  const Centre := 4

  /** The `k`-th cell of the window around `p`. */
  function Shift(p: Pos, k: int): (q: Pos)
    requires 0 <= k < |Offsets|
    ensures Near(p, q)
    ensures q == p <==> k == Centre
  {
    Pos(p.r + Offsets[k].0, p.c + Offsets[k].1)
  }

  /** Where `q` sits in the window of `p`: the inverse of `Shift`. */
  function OffsetIndex(p: Pos, q: Pos): (k: int)
    requires Near(p, q)
    ensures 0 <= k < |Offsets| && Shift(p, k) == q
  {
    (q.r - p.r + 1) * 3 + (q.c - p.c + 1)
  }

  /** Every offset index is recovered from the cell it names. */
  lemma ShiftRoundTrip(p: Pos, k: int)
    requires 0 <= k < |Offsets|
    ensures OffsetIndex(p, Shift(p, k)) == k
  {
  }

  /** The mines in the window of `p`. Mines lie inside the grid, so the
      window is clipped at the edges and never wraps. */
  function MinesNear(mines: set<Pos>, p: Pos): (near: set<Pos>)
    ensures near <= mines
    ensures forall q {:trigger q in near} :: q in near <==> q in mines && Near(p, q)
  {
    set q | q in mines && Near(p, q)
  }

  /** The eight cells around `p`, the centre left out. */
  function Ring(p: Pos): set<Pos> {
    set k | 0 <= k < |Offsets| && k != Centre :: Shift(p, k)
  }

  lemma RingSize(p: Pos)
    ensures |Ring(p)| <= 8
  {
    var ring := {Shift(p, 0), Shift(p, 1), Shift(p, 2), Shift(p, 3),
                  Shift(p, 5), Shift(p, 6), Shift(p, 7), Shift(p, 8)};
    assert Ring(p) == ring;
  }

  /** A safe cell has at most eight mines around it. */
  lemma MinesNearAtMostEight(mines: set<Pos>, p: Pos)
    requires p !in mines
    ensures |MinesNear(mines, p)| <= 8
  {
    forall q | q in MinesNear(mines, p)
      ensures q in Ring(p)
    {
      var k := OffsetIndex(p, q);
      assert k != Centre;
    }
    SubsetSize(MinesNear(mines, p), Ring(p));
    RingSize(p);
  }

  /** The mines of `near` visited by a row-major scan strictly before (rr, cc). */
  ghost function ScannedBefore(near: set<Pos>, rr: int, cc: int): set<Pos> {
    set q | q in near && RowMajorBefore(q, rr, cc)
  }

  /** `q` comes strictly before (rr, cc) in row-major order. */
  predicate RowMajorBefore(q: Pos, rr: int, cc: int) {
    q.r < rr || (q.r == rr && q.c < cc)
  }

  /** One step of the row-major scan adds the scanned cell when it is a mine of `near`. */
  lemma ScanStep(near: set<Pos>, rr: int, cc: int, next: int)
    requires next == cc + 1
    ensures ScannedBefore(near, rr, next)
         == ScannedBefore(near, rr, cc) + (if Pos(rr, cc) in near then {Pos(rr, cc)} else {})
    ensures |ScannedBefore(near, rr, next)| == |ScannedBefore(near, rr, cc)| + (if Pos(rr, cc) in near then 1 else 0)
  {
    assert Pos(rr, cc) !in ScannedBefore(near, rr, cc);
  }

  /** When every cell of `near` lies in columns cLo .. cHi-1, finishing row
      `rr` is starting row `rr + 1`. */
  lemma ScanNextRow(near: set<Pos>, rr: int, next: int, cLo: int, cHi: int)
    requires next == rr + 1
    requires forall q {:trigger q in near} :: q in near ==> cLo <= q.c < cHi
    ensures ScannedBefore(near, next, cLo) == ScannedBefore(near, rr, cHi)
  {
  }

  /** Multiplying by a non-negative number keeps the order. */
  lemma MulMono(a: int, b: int, c: int)
    ensures 0 <= c && a <= b ==> a * c <= b * c
  {
    if 0 <= c && a <= b {
      assert b * c - a * c == (b - a) * c;
    }
  }

  /** A subset is no larger, and a subset of equal size is the whole set. */
  lemma SubsetSize<T>(a: set<T>, b: set<T>)
    requires a <= b
    ensures |a| <= |b|
    ensures |a| == |b| ==> a == b
  {
    assert b == a + (b - a);
    assert |b| == |a| + |b - a|;
    if |a| == |b| {
      assert b - a == {};
    }
  }

  /** Every cell of a rows x cols grid. */
  function AllCells(rows: int, cols: int): (s: set<Pos>)
    ensures forall p {:trigger p in s} :: p in s <==> InFrame(p, rows, cols)
  {
    set r, c | 0 <= r < rows && 0 <= c < cols :: Pos(r, c)
  }

  /** The cells of row `r` in columns `0 .. cols-1`. */
  function RowCells(r: int, cols: int): set<Pos> {
    set c | 0 <= c < cols :: Pos(r, c)
  }

  lemma {:induction false} RowCellsSize(r: int, cols: nat)
    ensures |RowCells(r, cols)| == cols
  {
    if cols > 0 {
      RowCellsSize(r, cols - 1);
      assert RowCells(r, cols) == RowCells(r, cols - 1) + {Pos(r, cols - 1)};
    }
  }

  /** A rows x cols grid has rows * cols cells. */
  lemma {:induction false} AllCellsSize(rows: nat, cols: nat)
    ensures |AllCells(rows, cols)| == rows * cols
  {
    if rows > 0 {
      AllCellsSize(rows - 1, cols);
      RowCellsSize(rows - 1, cols);
      var above, last := AllCells(rows - 1, cols), RowCells(rows - 1, cols);
      AllCellsSplit(rows, cols);
      assert above * last == {};
      assert |above + last| == |above| + |last|;
      assert (rows - 1) * cols + cols == rows * cols;
    }
  }

  /** A grid is the grid one row shorter plus its last row. */
  lemma AllCellsSplit(rows: nat, cols: nat)
    requires rows > 0
    ensures AllCells(rows, cols) == AllCells(rows - 1, cols) + RowCells(rows - 1, cols)
    ensures AllCells(rows - 1, cols) !! RowCells(rows - 1, cols)
  {
    var last := RowCells(rows - 1, cols);
    forall p | p in last ensures p in AllCells(rows, cols) && p.r == rows - 1 {
      var c :| 0 <= c < cols && p == Pos(rows - 1, c);
    }
    forall p | p in AllCells(rows, cols) && p.r == rows - 1 ensures p in last {
      assert p == Pos(rows - 1, p.c);
    }
  }

  /** The cells of `g` whose value satisfies `f`. */
  function Cells<T>(g: map<Pos, T>, f: T -> bool): (s: set<Pos>)
    ensures forall p {:trigger p in s} :: p in s <==> p in g && f(g[p])
  {
    set p | p in g && f(g[p])
  }

  /** No counter of a framed grid exceeds the number of its cells. */
  lemma CellsAtMost<T>(g: map<Pos, T>, rows: nat, cols: nat, f: T -> bool)
    requires Framed(g, rows, cols)
    ensures |Cells(g, f)| <= rows * cols
  {
    SubsetSize(Cells(g, f), AllCells(rows, cols));
    AllCellsSize(rows, cols);
  }

  /** How one cell update moves a cell set: the updated cell leaves or joins
      it according to its new value, and no other cell moves. */
  lemma CellsAfterPut<T>(g: map<Pos, T>, p: Pos, v: T, f: T -> bool)
    requires p in g
    ensures Cells(g[p := v], f) == (if f(v) then Cells(g, f) + {p} else Cells(g, f) - {p})
  {
  }

  /** The distinct values among the elements of `s`. */
  function Elems<T>(s: seq<T>): set<T> {
    set x | x in s
  }

  /** Rejection sampling: keeps drawing from `samples` into a set until the
      set holds `count` values. `samples` stands for the random source; if it
      runs dry first (it stands for an endless stream), `used` is its length. */
  method DrawDistinct<T>(count: int, samples: seq<T>) returns (chosen: set<T>, used: nat)
    ensures used <= |samples|
    ensures chosen == Elems(samples[..used])
    ensures count <= 0 ==> used == 0
    ensures |chosen| < count ==> used == |samples|
    ensures 0 <= count ==> |chosen| <= count
    ensures forall k :: 0 <= k < used ==> |Elems(samples[..k])| < count
    ensures 0 <= count <= |Elems(samples)| ==> |chosen| == count
  {
    chosen := {};
    used := 0;
    while |chosen| < count && used < |samples|
      invariant used <= |samples|
      invariant chosen == Elems(samples[..used])
      invariant 0 <= count ==> |chosen| <= count
      invariant forall k :: 0 <= k < used ==> |Elems(samples[..k])| < count
      decreases |samples| - used
    {
      assert samples[..used + 1] == samples[..used] + [samples[used]];
      chosen := chosen + {samples[used]};
      used := used + 1;
    }
    assert used == |samples| ==> samples[..used] == samples;
  }
}

=== FILE: session.dfy ===
/** The event transitions of the game loop in game.py's `main`: the level
    presets, the menu keys, the mapping of a mouse click to a tile, and the
    effect of one event on the game. Drawing, the clock and the event queue
    are left to the caller, who feeds events one at a time. */
module Session {
  import opened Grid
  import opened Wrappers
  import opened Sweeper

  /** Size of the board area of the window in pixels (line 6); the 50-pixel
      status strip below it is not part of the board. */
  const WIDTH := 600
  const HEIGHT := 600

  /** Lines 112-118: the dimensions of a level. Every level that is neither
      "easy" nor "medium" plays as hard. */
  function Preset(level: string): (d: Dims)
    ensures d == Easy <==> level == "easy"
    ensures d == Medium <==> level == "medium"
    ensures d == Hard <==> level != "easy" && level != "medium"
    ensures Playable(d) && d.rows == d.cols
  {
    if level == "easy" then Easy
    else if level == "medium" then Medium
    else Hard
  }

  /** Line 118: the side of a square tile, the window width shared out among
      the columns and rounded down. */
  function TileSize(d: Dims): (t: int)
    requires 0 < d.cols <= WIDTH
    ensures 0 < t && d.cols * t <= WIDTH < d.cols * (t + 1)
  {
    var t := WIDTH / d.cols;
    assert WIDTH == d.cols * t + WIDTH % d.cols;
    t
  }

  /** Every preset's grid fits in the board area of the window. */
  lemma PresetsFit(level: string)
    ensures var d := Preset(level);
      d.cols * TileSize(d) <= WIDTH && d.rows * TileSize(d) <= HEIGHT
  {
  }

  /** Floor division by a positive tile size finds the tile holding `x`. */
  lemma TileOf(x: int, t: int)
    requires 0 < t
    ensures (x / t) * t <= x < (x / t + 1) * t
  {
    assert x == (x / t) * t + x % t;
  }

  /** The tile holding `x` is one of the first `n` exactly when `x` lies in
      the first `n` tiles. */
  lemma TileInRange(x: int, t: int, n: int)
    requires 0 < t
    ensures 0 <= x / t < n <==> 0 <= x < n * t
  {
    var q := x / t;
    TileOf(x, t);
    MulMono(0, q, t);
    MulMono(q + 1, 0, t);
    MulMono(q + 1, n, t);
    MulMono(n, q, t);
  }

  /** Lines 143-158: the menu keys 1, 2 and 3 pick easy, medium and hard;
      every other key is ignored by the menu. */
  function MenuKey(key: char): (level: Option<string>)
    ensures level.Some? <==> key in "123"
    ensures key == '1' <==> level == Some("easy")
    ensures key == '2' <==> level == Some("medium")
    ensures key == '3' <==> level == Some("hard")
  {
    match key
    case '1' => Some("easy")
    case '2' => Some("medium")
    case '3' => Some("hard")
    case _ => None
  }

  /** The three menu keys lead to three different games. */
  lemma MenuKeysDistinct(k1: char, k2: char)
    requires MenuKey(k1).Some? && MenuKey(k2).Some? && k1 != k2
    ensures Preset(MenuKey(k1).value) != Preset(MenuKey(k2).value)
  {
  }

  // ---------------------------------------------------------------------------
  // Mapping a click to a tile
  // ---------------------------------------------------------------------------

  /** Lines 193-194 as written: the tile whose square holds the pixel, with
      no check that the tile lies on the board. */
  function ClickCellAsWritten(d: Dims, x: int, y: int): (p: Pos)
    requires 0 < d.cols <= WIDTH
    ensures p.c * TileSize(d) <= x < (p.c + 1) * TileSize(d)
    ensures p.r * TileSize(d) <= y < (p.r + 1) * TileSize(d)
  {
    TileOf(x, TileSize(d));
    TileOf(y, TileSize(d));
    Pos(y / TileSize(d), x / TileSize(d))
  }

  /** The board of a medium game is 16 * 37 = 592 pixels wide, so a click in
      the last 8 columns of the window maps to column 16, one past the board,
      and line 197 indexes out of range. The same holds for the last 6 pixel
      rows above the status strip in an easy game (9 * 66 = 594). */
  lemma ClickOffBoard()
    ensures var d := Preset("medium"); var p := ClickCellAsWritten(d, 595, 100);
      0 <= 595 < WIDTH && 100 < HEIGHT && p == Pos(2, 16) && !InFrame(p, d.rows, d.cols)
    ensures var d := Preset("easy"); var p := ClickCellAsWritten(d, 10, 597);
      597 < HEIGHT && p == Pos(9, 0) && !InFrame(p, d.rows, d.cols)
  {
  }

  /** The tile under a click, or nothing when the pixel lies outside every
      tile of the board: the bounds check lines 193-197 leave out. */
  function ClickCell(d: Dims, x: int, y: int): (p: Option<Pos>)
    requires 0 < d.cols <= WIDTH
    ensures p.Some? ==> InFrame(p.value, d.rows, d.cols) && p.value == ClickCellAsWritten(d, x, y)
    ensures p.None? <==> !(0 <= x < d.cols * TileSize(d) && 0 <= y < d.rows * TileSize(d))
  {
    TileInRange(x, TileSize(d), d.cols);
    TileInRange(y, TileSize(d), d.rows);
    var q := ClickCellAsWritten(d, x, y);
    if InFrame(q, d.rows, d.cols) then Some(q) else None
  }

  // ---------------------------------------------------------------------------
  // The game and its events
  // ---------------------------------------------------------------------------

  /** The variables of `main` that one game round reads and writes. */
  datatype Game = Game(level: string, board: Board, state: View, gameOver: bool, win: bool, running: bool)

  /** The pygame events the loop reacts to; keys are given by their character. */
  datatype Event = Quit | KeyDown(key: char) | MouseDown(button: int, x: int, y: int)

  /** The mine sets create_board can return for a level: as many distinct
      positions of its grid as it has mines (see CreateBoard). */
  predicate IsDraw(level: string, mines: set<Pos>) {
    var d := Preset(level);
    mines <= AllCells(d.rows, d.cols) && |mines| == d.mines
  }

  /** Board and state are framed by the level's grid. */
  predicate Shaped(g: Game) {
    var d := Preset(g.level);
    Framed(g.board, d.rows, d.cols) && g.state.Keys == g.board.Keys
  }

  /** Every cell hidden, as line 120 builds the state. */
  function AllHidden(rows: int, cols: int): (s: View)
    ensures Framed(s, rows, cols)
    ensures Cells(s, IsHidden) == AllCells(rows, cols)
  {
    map p | p in AllCells(rows, cols) :: Hidden
  }

  /** Lines 110-122: a fresh round of `level` on the board create_board lays
      out for the drawn `mines`. */
  function Fresh(level: string, mines: set<Pos>, running: bool): (g: Game)
    requires IsDraw(level, mines)
    ensures Shaped(g) && g.level == level && g.running == running
    ensures Mines(g.board) == mines && WellCounted(g.board)
    ensures Cells(g.state, IsHidden) == g.state.Keys
    ensures !g.gameOver && !g.win
  {
    var d := Preset(level);
    Game(level, Layout(d.rows, d.cols, mines), AllHidden(d.rows, d.cols), false, false, running)
  }

  /** Lines 196-208: a left click on cell `p`. A hidden mine shows every mine
      and loses; another hidden cell is revealed with its cascade and wins
      when no safe cell is left hidden; a revealed or flagged cell is left
      alone. The cascade is complete (no uncovered zero cell keeps a hidden
      neighbour) and sound (every uncovered cell is reached from `p` along a
      path of uncovered zero cells). */
  function LeftClick(g: Game, p: Pos): (g': Game)
    requires Shaped(g) && p in g.board
    ensures Shaped(g') && g'.level == g.level && g'.board == g.board && g'.running == g.running
    ensures g.state[p] != Hidden ==> g' == g
    ensures g.state[p] == Hidden && g.board[p] == MINE ==>
      g'.gameOver && g'.win == g.win && g'.state == ShowMines(g.board, g.state)
    ensures g.state[p] == Hidden && g.board[p] != MINE ==>
      g'.gameOver == g.gameOver && OnlyReveals(g.state, g'.state) && g'.state[p] == Revealed &&
      g'.win == (g.win || Cleared(g.board, g'.state))
    ensures g.state[p] == Hidden && g.board[p] != MINE ==>
      Closed(g.board, g.state, g'.state) &&
      forall q :: Uncovered(g.state, g'.state, q) ==> ZeroChain(g.board, g.state, g'.state, p, q)
  {
    if g.state[p] != Hidden then g
    else if g.board[p] == MINE then g.(state := ShowMines(g.board, g.state), gameOver := true)
    else
      var s := Reveal(g.board, g.state, p);
      RevealClosed(g.board, g.state, p);
      RevealSpreadsFromZeros(g.board, g.state, p);
      g.(state := s, win := g.win || Cleared(g.board, s))
  }

  /** Lines 196-214: a click of `button` on cell `p` of a running round:
      button 1 reveals, button 3 toggles a flag, any other button does
      nothing. */
  function Click(g: Game, button: int, p: Pos): (g': Game)
    requires Shaped(g) && p in g.board
    ensures Shaped(g') && g'.level == g.level && g'.board == g.board && g'.running == g.running
    ensures button == 1 ==> g' == LeftClick(g, p)
    ensures button == 3 ==> g'.state == ToggleFlag(g.state, p) && g'.gameOver == g.gameOver && g'.win == g.win
    ensures button != 1 && button != 3 ==> g' == g
  {
    if button == 1 then LeftClick(g, p)
    else if button == 3 then g.(state := ToggleFlag(g.state, p))
    else g
  }

  /** Lines 178-214: the effect of one event. Quit stops the loop; once the
      round is lost or won only R does anything, and it starts a fresh round
      of the same level on the board drawn from `mines`; clicks below the
      board, and (unlike lines 193-197) clicks beside the last tile, are
      ignored; other clicks act on the tile under the pointer. */
  function Step(g: Game, e: Event, mines: set<Pos>): (g': Game)
    requires Shaped(g) && IsDraw(g.level, mines)
    ensures Shaped(g') && g'.level == g.level
    ensures g'.running == (g.running && !e.Quit?)
  {
    var g1 := if e.Quit? then g.(running := false) else g;
    if g1.gameOver || g1.win then
      if e == KeyDown('r') then Fresh(g1.level, mines, g1.running) else g1
    else if e.MouseDown? && e.y < HEIGHT then
      match ClickCell(Preset(g1.level), e.x, e.y)
      case None => g1
      case Some(p) => Click(g1, e.button, p)
    else g1
  }

  /** Lines 168-169: the "Mines Left" figure of the status strip. */
  function MinesLeftOf(g: Game): (left: int)
    ensures Shaped(g) ==> Preset(g.level).mines - Preset(g.level).rows * Preset(g.level).cols <= left
    ensures left <= Preset(g.level).mines
    ensures left == Preset(g.level).mines <==> Cells(g.state, IsFlagged) == {}
  {
    var d := Preset(g.level);
    assert Shaped(g) ==> d.mines - d.rows * d.cols <= MinesLeft(d.mines, g.state) by {
      if Shaped(g) {
        MinesLeftRange(d.mines, d.rows, d.cols, g.state);
      }
    }
    MinesLeft(d.mines, g.state)
  }

  // ---------------------------------------------------------------------------
  // Properties of the loop
  // ---------------------------------------------------------------------------

  /** What every reachable round satisfies: a board correctly counted for its
      level's mines; lost and won exclude each other; while the round is not
      lost no mine is revealed and the win flag says exactly whether every
      safe cell is revealed; once lost, every mine is revealed. */
  ghost predicate Consistent(g: Game) {
    Shaped(g) &&
    |Mines(g.board)| == Preset(g.level).mines && WellCounted(g.board) &&
    !(g.gameOver && g.win) &&
    (!g.gameOver ==> Mines(g.board) !! Cells(g.state, IsRevealed)) &&
    (!g.gameOver ==> (g.win <==> Cleared(g.board, g.state))) &&
    (g.gameOver ==> Mines(g.board) <= Cells(g.state, IsRevealed))
  }

  /** A fresh round is consistent: it has a safe cell, still hidden, so it is
      not won. */
  lemma FreshConsistent(level: string, mines: set<Pos>, running: bool)
    requires IsDraw(level, mines)
    ensures Consistent(Fresh(level, mines, running))
  {
    var d := Preset(level);
    var g := Fresh(level, mines, running);
    AllCellsSize(d.rows, d.cols);
    assert AllCells(d.rows, d.cols) - mines != {} by {
      if AllCells(d.rows, d.cols) - mines == {} {
        assert forall q :: q in AllCells(d.rows, d.cols) ==> q in mines by {
          forall q | q in AllCells(d.rows, d.cols) ensures q in mines {
            assert q !in AllCells(d.rows, d.cols) - mines;
          }
        }
        SubsetSize(AllCells(d.rows, d.cols), mines);
      }
    }
    var p :| p in AllCells(d.rows, d.cols) - mines;
    assert g.board[p] != MINE && g.state[p] == Hidden;
    assert Cells(g.state, IsRevealed) == {} by {
      forall q | q in g.state ensures g.state[q] != Revealed {
        assert q in Cells(g.state, IsHidden);
      }
    }
  }

  /** Toggling a flag changes neither which cells are revealed nor whether
      every safe cell is. */
  lemma ToggleKeepsRevealed(b: Board, s: View, p: Pos)
    requires s.Keys == b.Keys && p in s
    ensures Cells(ToggleFlag(s, p), IsRevealed) == Cells(s, IsRevealed)
    ensures Cleared(b, ToggleFlag(s, p)) == Cleared(b, s)
  {
    var s' := ToggleFlag(s, p);
    assert forall q {:trigger s'[q]} :: q in s ==> (s'[q] == Revealed <==> s[q] == Revealed);
  }

  /** A reveal started on a hidden safe cell of a consistent, running round
      uncovers no mine. */
  lemma RevealKeepsMinesHidden(b: Board, s: View, p: Pos)
    requires s.Keys == b.Keys && WellCounted(b) && p in b && b[p] != MINE
    requires Mines(b) !! Cells(s, IsRevealed)
    ensures Mines(b) !! Cells(Reveal(b, s, p), IsRevealed)
  {
    var s' := Reveal(b, s, p);
    CascadeNeverUncoversMine(b, s, p);
    forall q | q in Mines(b) && q in Cells(s', IsRevealed)
      ensures false
    {
      assert s[q] != Revealed;
      assert Uncovered(s, s', q);
    }
  }

  /** A click keeps a running round consistent. */
  lemma ClickConsistent(g: Game, button: int, p: Pos)
    requires Consistent(g) && !g.gameOver && !g.win && p in g.board
    ensures Consistent(Click(g, button, p))
  {
    if button == 1 {
      if g.state[p] == Hidden && g.board[p] != MINE {
        RevealKeepsMinesHidden(g.board, g.state, p);
      }
    } else if button == 3 {
      ToggleKeepsRevealed(g.board, g.state, p);
    }
  }

  /** Every event keeps a round consistent, when the board a restart draws
      is one create_board can return. */
  lemma StepConsistent(g: Game, e: Event, mines: set<Pos>)
    requires Consistent(g) && IsDraw(g.level, mines)
    ensures Consistent(Step(g, e, mines))
  {
    var g1 := if e.Quit? then g.(running := false) else g;
    if g1.gameOver || g1.win {
      if e == KeyDown('r') {
        FreshConsistent(g1.level, mines, g1.running);
      }
    } else if e.MouseDown? && e.y < HEIGHT && ClickCell(Preset(g1.level), e.x, e.y).Some? {
      ClickConsistent(g1, e.button, ClickCell(Preset(g1.level), e.x, e.y).value);
    }
  }

  /** Lines 182-187: once the round is lost or won, no event but R changes
      the board or any cell. */
  lemma TerminalFreezes(g: Game, e: Event, mines: set<Pos>)
    requires Shaped(g) && IsDraw(g.level, mines)
    requires g.gameOver || g.win
    requires e != KeyDown('r')
    ensures var g' := Step(g, e, mines);
      g'.board == g.board && g'.state == g.state && g'.gameOver == g.gameOver && g'.win == g.win
  {
  }

  /** Lines 183-186: R after the round ends starts a fresh, all-hidden round
      of the same level. */
  lemma RestartAfterEnd(g: Game, mines: set<Pos>)
    requires Shaped(g) && IsDraw(g.level, mines)
    requires g.gameOver || g.win
    ensures var g' := Step(g, KeyDown('r'), mines);
      !g'.gameOver && !g'.win && Mines(g'.board) == mines && Cells(g'.state, IsRevealed) == {}
  {
    var g' := Step(g, KeyDown('r'), mines);
    assert Cells(g'.state, IsRevealed) == {} by {
      forall q | q in g'.state ensures g'.state[q] != Revealed {
        assert q in Cells(g'.state, IsHidden);
      }
    }
  }

  /** Lines 197-204: a left click on a hidden mine loses the round, reveals
      every mine and leaves every safe cell as it was. */
  lemma LeftClickOnMine(g: Game, x: int, y: int, mines: set<Pos>)
    requires Shaped(g) && IsDraw(g.level, mines) && !g.gameOver && !g.win && y < HEIGHT
    requires ClickCell(Preset(g.level), x, y).Some?
    requires var p := ClickCell(Preset(g.level), x, y).value; g.state[p] == Hidden && g.board[p] == MINE
    ensures var g' := Step(g, MouseDown(1, x, y), mines);
      g'.gameOver && Mines(g.board) <= Cells(g'.state, IsRevealed) &&
      forall q :: q in g.state && g.board[q] != MINE ==> g'.state[q] == g.state[q]
  {
  }

  /** Lines 205-208: a left click on a hidden safe cell of a running round
      reveals it with its cascade, which is complete and reaches every
      uncovered cell along a path of uncovered zero cells from the clicked
      one; the round is not lost, and it is won exactly when no safe cell
      is left hidden. */
  lemma LeftClickOnSafe(g: Game, x: int, y: int, mines: set<Pos>)
    requires Shaped(g) && IsDraw(g.level, mines) && !g.gameOver && !g.win && y < HEIGHT
    requires ClickCell(Preset(g.level), x, y).Some?
    requires var p := ClickCell(Preset(g.level), x, y).value; g.state[p] == Hidden && g.board[p] != MINE
    ensures var p := ClickCell(Preset(g.level), x, y).value;
      var g' := Step(g, MouseDown(1, x, y), mines);
      g'.state[p] == Revealed && OnlyReveals(g.state, g'.state) &&
      Closed(g.board, g.state, g'.state) &&
      (forall q :: Uncovered(g.state, g'.state, q) ==> ZeroChain(g.board, g.state, g'.state, p, q)) &&
      !g'.gameOver && g'.win == Cleared(g.board, g'.state)
  {
  }

  /** Line 197: a left click on a revealed or flagged cell changes nothing. */
  lemma LeftClickOnShown(g: Game, x: int, y: int, mines: set<Pos>)
    requires Shaped(g) && IsDraw(g.level, mines) && y < HEIGHT
    requires ClickCell(Preset(g.level), x, y).Some?
    requires g.state[ClickCell(Preset(g.level), x, y).value] != Hidden
    ensures Step(g, MouseDown(1, x, y), mines) == g
  {
  }

  /** Lines 210-214: two right clicks on the same tile of a running round
      restore every cell, and with it the mines-left figure. */
  lemma RightClickTwice(g: Game, x: int, y: int, mines: set<Pos>)
    requires Shaped(g) && IsDraw(g.level, mines) && !g.gameOver && !g.win
    ensures var e := MouseDown(3, x, y); Step(Step(g, e, mines), e, mines) == g
  {
    var e := MouseDown(3, x, y);
    if y < HEIGHT && ClickCell(Preset(g.level), x, y).Some? {
      ToggleTwice(g.state, ClickCell(Preset(g.level), x, y).value);
    }
  }

  /** Lines 168-169 and 210-214: a right click moves the mines-left figure by
      one, down when it places a flag and up when it removes one. */
  lemma RightClickMovesMinesLeft(g: Game, x: int, y: int, mines: set<Pos>)
    requires Shaped(g) && IsDraw(g.level, mines) && !g.gameOver && !g.win && y < HEIGHT
    requires ClickCell(Preset(g.level), x, y).Some?
    ensures var p := ClickCell(Preset(g.level), x, y).value;
      var g' := Step(g, MouseDown(3, x, y), mines);
      MinesLeftOf(g') == MinesLeftOf(g) + (if g.state[p] == Hidden then -1 else if g.state[p] == Flagged then 1 else 0)
  {
    ToggleMovesMinesLeft(Preset(g.level).mines, g.state, ClickCell(Preset(g.level), x, y).value);
  }
}

=== FILE: sweeper.dfy ===
/** The game logic of the pygame front end (game.py): board generation, the
    per-cell visibility state machine, the recursive flood-fill reveal and the
    win check. The event transitions of its game loop are in module Session. */
module Sweeper {
  import opened Grid

  /** Board value of a mine; every other value is the cell's mine count. */
  const MINE := -1

  /** Visibility of one cell. */
  datatype Tile = Hidden | Revealed | Flagged

  /** Board values by position (the list of lists `board`). */
  type Board = map<Pos, int>

  /** Visibility of each cell, over the same positions (the list of lists `state`). */
  type View = map<Pos, Tile>

  predicate IsMine(v: int) { v == MINE }
  predicate IsHidden(t: Tile) { t == Hidden }
  predicate IsRevealed(t: Tile) { t == Revealed }
  predicate IsFlagged(t: Tile) { t == Flagged }

  /** The cells of `b` that hold a mine. */
  function Mines(b: Board): set<Pos> {
    Cells(b, IsMine)
  }

  /** Each safe cell holds the number of mines in its window clipped to the grid. */
  ghost predicate WellCounted(b: Board) {
    forall p {:trigger b[p]} :: p in b && b[p] != MINE ==> b[p] == |MinesNear(Mines(b), p)|
  }

  // ---------------------------------------------------------------------------
  // Board generation (create_board)
  // ---------------------------------------------------------------------------

  /** The board create_board aims at: the sentinel on each mine and, on every
      other cell, the size of its mine window. */
  function Layout(rows: nat, cols: nat, mines: set<Pos>): (b: Board)
    requires mines <= AllCells(rows, cols)
    ensures Framed(b, rows, cols)
    ensures Mines(b) == mines
    ensures WellCounted(b)
    ensures forall p {:trigger b[p]} :: p in b && p !in mines ==> 0 <= b[p] <= 8
  {
    LayoutCountsInRange(mines);
    map p | p in AllCells(rows, cols) :: if p in mines then MINE else |MinesNear(mines, p)|
  }

  lemma LayoutCountsInRange(mines: set<Pos>)
    ensures forall p :: p !in mines ==> |MinesNear(mines, p)| <= 8
  {
    forall p | p !in mines
      ensures |MinesNear(mines, p)| <= 8
    {
      MinesNearAtMostEight(mines, p);
    }
  }

  function Max(a: int, b: int): int { if a < b then b else a }
  function Min(a: int, b: int): int { if a < b then a else b }

  /** The count of lines 46-50: the mines in the window of (r, c) clipped to
      the grid, found by scanning the board for the sentinel. */
  method CountNear(board: Board, rows: nat, cols: nat, r: int, c: int) returns (count: int)
    requires Framed(board, rows, cols)
    requires InFrame(Pos(r, c), rows, cols)
    ensures count == |MinesNear(Mines(board), Pos(r, c))|
  {
    ghost var near := MinesNear(Mines(board), Pos(r, c));
    var rLo, rHi := Max(0, r - 1), Min(rows, r + 2);
    var cLo, cHi := Max(0, c - 1), Min(cols, c + 2);
    assert forall q {:trigger q in near} :: q in near ==> rLo <= q.r < rHi && cLo <= q.c < cHi;
    count := 0;
    var rr := rLo;
    assert ScannedBefore(near, rr, cLo) == {};
    while rr < rHi
      invariant rLo <= rr <= rHi
      invariant count == |ScannedBefore(near, rr, cLo)|
    {
      count := ScanRow(board, rows, cols, r, c, rr, cLo, cHi, count);
      ScanNextRow(near, rr, rr + 1, cLo, cHi);
      rr := rr + 1;
    }
    assert ScannedBefore(near, rr, cLo) == near;
  }

  /** The inner loop of lines 48-50 over columns cLo .. cHi-1 of row rr. */
  method ScanRow(board: Board, rows: nat, cols: nat, r: int, c: int, rr: int, cLo: int, cHi: int, before: int)
    returns (count: int)
    requires Framed(board, rows, cols) && 0 <= rr < rows && 0 <= cLo <= cHi <= cols
    requires r - 1 <= rr <= r + 1 && c - 1 <= cLo && cHi <= c + 2
    requires before == |ScannedBefore(MinesNear(Mines(board), Pos(r, c)), rr, cLo)|
    ensures count == |ScannedBefore(MinesNear(Mines(board), Pos(r, c)), rr, cHi)|
  {
    ghost var near := MinesNear(Mines(board), Pos(r, c));
    count := before;
    var cc := cLo;
    while cc < cHi
      invariant cLo <= cc <= cHi
      invariant count == |ScannedBefore(near, rr, cc)|
    {
      ScanStep(near, rr, cc, cc + 1);
      assert Pos(rr, cc) in board;
      assert Pos(rr, cc) in near <==> board[Pos(rr, cc)] == MINE;
      if board[Pos(rr, cc)] == MINE {
        count := count + 1;
      }
      cc := cc + 1;
    }
  }

  /** Lines 34 and 39-40: a zero board with the sentinel on each mine. */
  function Marked(rows: nat, cols: nat, mines: set<Pos>): (b: Board)
    requires mines <= AllCells(rows, cols)
    ensures Framed(b, rows, cols)
    ensures Mines(b) == mines
    ensures forall p {:trigger b[p]} :: p in b && p !in mines ==> b[p] == 0
  {
    map p | p in AllCells(rows, cols) :: if p in mines then MINE else 0
  }

  /** create_board: draws distinct positions from `samples` (the random
      source) until `minesCount` are collected, puts the sentinel on them,
      then overwrites every other cell with its window count. `used` is the
      number of draws consumed: the mines are exactly the positions among
      those draws, and the loop stopped at the first draw that completed
      the set. */
  method CreateBoard(rows: nat, cols: nat, minesCount: nat, samples: seq<Pos>) returns (board: Board, used: nat)
    requires forall i :: 0 <= i < |samples| ==> InFrame(samples[i], rows, cols)
    requires minesCount <= |Elems(samples)|
    ensures Framed(board, rows, cols)
    ensures |Mines(board)| == minesCount
    ensures used <= |samples| && Mines(board) == Elems(samples[..used])
    ensures forall k :: 0 <= k < used ==> |Elems(samples[..k])| < minesCount
    ensures board == Layout(rows, cols, Elems(samples[..used]))
    ensures WellCounted(board)
    ensures forall p {:trigger board[p]} :: p in board && board[p] != MINE ==> 0 <= board[p] <= 8
  {
    var mines;
    mines, used := DrawDistinct(minesCount, samples);
    assert mines <= AllCells(rows, cols) by {
      forall p | p in mines ensures p in AllCells(rows, cols) {
        assert p in samples;
      }
    }
    board := Marked(rows, cols, mines);
    board := FillCounts(board, rows, cols, mines);
  }

  /** Lines 42-51: every cell that does not hold the sentinel is overwritten
      with its window count, row by row. */
  method FillCounts(marked: Board, rows: nat, cols: nat, ghost mines: set<Pos>) returns (board: Board)
    requires mines <= AllCells(rows, cols)
    requires marked == Marked(rows, cols, mines)
    ensures board == Layout(rows, cols, mines)
  {
    board := marked;
    var r := 0;
    while r < rows
      invariant 0 <= r <= rows
      invariant Framed(board, rows, cols) && Mines(board) == mines
      invariant forall p {:trigger board[p]} :: p in board && p !in mines ==>
        board[p] == (if p.r < r then |MinesNear(mines, p)| else 0)
    {
      board := FillRow(board, rows, cols, r, mines);
      r := r + 1;
    }
    FilledIsLayout(board, rows, cols, mines);
  }

  /** A framed board with the sentinel exactly on the mines and the window
      count on every other cell is the layout. */
  lemma FilledIsLayout(board: Board, rows: nat, cols: nat, mines: set<Pos>)
    requires mines <= AllCells(rows, cols)
    requires Framed(board, rows, cols) && Mines(board) == mines
    requires forall p {:trigger board[p]} :: p in board && p !in mines ==> board[p] == |MinesNear(mines, p)|
    ensures board == Layout(rows, cols, mines)
  {
    var goal := Layout(rows, cols, mines);
    assert forall p {:trigger board[p]} :: p in board ==> board[p] == goal[p];
  }

  /** One pass of the inner loop of lines 43-51 over row `r`. The scan reads
      the board as it is being rewritten; the counts written so far are never
      the sentinel, so it still sees exactly the mines. */
  method FillRow(before: Board, rows: nat, cols: nat, r: nat, ghost mines: set<Pos>) returns (board: Board)
    requires r < rows
    requires Framed(before, rows, cols) && Mines(before) == mines
    requires forall p {:trigger before[p]} :: p in before && p !in mines ==>
      before[p] == (if p.r < r then |MinesNear(mines, p)| else 0)
    ensures Framed(board, rows, cols) && Mines(board) == mines
    ensures forall p {:trigger board[p]} :: p in board && p !in mines ==>
      board[p] == (if p.r <= r then |MinesNear(mines, p)| else 0)
  {
    board := before;
    var c := 0;
    while c < cols
      invariant 0 <= c <= cols
      invariant Framed(board, rows, cols) && Mines(board) == mines
      invariant forall p {:trigger board[p]} :: p in board && p !in mines ==>
        board[p] == (if RowMajorBefore(p, r, c) then |MinesNear(mines, p)| else 0)
    {
      assert Pos(r, c) in board;
      if board[Pos(r, c)] != MINE {
        var count := CountNear(board, rows, cols, r, c);
        CellsAfterPut(board, Pos(r, c), count, IsMine);
        board := board[Pos(r, c) := count];
      }
      c := c + 1;
    }
  }

  // ---------------------------------------------------------------------------
  // Flood-fill reveal (adjacent_reveal)
  // ---------------------------------------------------------------------------

  /** Between `s` and `s'` the only change is hidden cells becoming revealed. */
  ghost predicate OnlyReveals(s: View, s': View) {
    s'.Keys == s.Keys &&
    forall p {:trigger s'[p]} :: p in s ==> s'[p] == s[p] || (s[p] == Hidden && s'[p] == Revealed)
  }

  /** adjacent_reveal: a no-op off the grid and on revealed or flagged cells;
      otherwise reveals the cell and, when its count is 0, recurses on each
      in-grid neighbour in row-major order. It terminates because every call
      that gets past the guards has one hidden cell fewer to work with. */
  function Reveal(b: Board, s: View, p: Pos): (s': View)
    requires s.Keys == b.Keys
    ensures OnlyReveals(s, s')
    ensures |Cells(s', IsHidden)| <= |Cells(s, IsHidden)|
    ensures p !in b || s[p] != Hidden ==> s' == s
    ensures p in b && s[p] == Hidden ==> s'[p] == Revealed
    decreases |Cells(s, IsHidden)|, 0
  {
    if p !in b || s[p] == Revealed || s[p] == Flagged then s
    else
      var s1 := s[p := Revealed];
      CellsAfterPut(s, p, Revealed, IsHidden);
      if b[p] == 0 then RevealAround(b, s1, p, 0) else s1
  }

  /** The neighbour loop of adjacent_reveal from offset `k` on: the centre and
      the cells off the grid are skipped, exactly the cells the clipped ranges
      and the `rr == r and cc == c` test leave out. */
  function RevealAround(b: Board, s: View, z: Pos, k: nat): (s': View)
    requires s.Keys == b.Keys && z in b && k <= |Offsets|
    ensures OnlyReveals(s, s')
    ensures |Cells(s', IsHidden)| <= |Cells(s, IsHidden)|
    decreases |Cells(s, IsHidden)|, 1, |Offsets| - k
  {
    if k == |Offsets| then s
    else
      var q := Shift(z, k);
      var s1 := if k == Centre || q !in b then s else Reveal(b, s, q);
      RevealAround(b, s1, z, k + 1)
  }

  /** `q` went from hidden to revealed between `s` and `s'`. */
  ghost predicate Uncovered(s: View, s': View, q: Pos) {
    q in s && q in s' && s[q] == Hidden && s'[q] == Revealed
  }

  /** Every zero cell uncovered between `s` and `s'` is left with no hidden
      cell in its window. */
  ghost predicate Closed(b: Board, s: View, s': View)
    requires s.Keys == b.Keys && s'.Keys == b.Keys
  {
    forall z, q {:trigger Uncovered(s, s', z), Near(z, q)} ::
      Uncovered(s, s', z) && b[z] == 0 && q in b && Near(z, q) ==> s'[q] != Hidden
  }

  /** `path` steps from each cell to a neighbouring one, and every cell on it
      but the last is a zero cell uncovered between `s` and `s'`: the route
      along which a cascade travels, since only uncovered zero cells pass
      the reveal on to their window. */
  ghost predicate ZeroPath(b: Board, s: View, s': View, path: seq<Pos>)
    requires s.Keys == b.Keys
  {
    |path| > 0 &&
    forall i :: 0 <= i < |path| - 1 ==>
      Uncovered(s, s', path[i]) && b[path[i]] == 0 && Near(path[i], path[i + 1])
  }

  /** `q` is reached from `p` along a zero path. */
  ghost predicate ZeroChain(b: Board, s: View, s': View, p: Pos, q: Pos)
    requires s.Keys == b.Keys
  {
    exists path {:trigger ZeroPath(b, s, s', path)} ::
      ZeroPath(b, s, s', path) && path[0] == p && path[|path| - 1] == q
  }

  /** `q` is reached along a zero path that starts in the window of `z`. */
  ghost predicate WindowChain(b: Board, s: View, s': View, z: Pos, q: Pos)
    requires s.Keys == b.Keys
  {
    exists path {:trigger ZeroPath(b, s, s', path)} ::
      ZeroPath(b, s, s', path) && Near(z, path[0]) && path[|path| - 1] == q
  }

  /** Two closed reveal phases in a row make a closed reveal. */
  lemma ClosedTrans(b: Board, s: View, s1: View, s2: View)
    requires s.Keys == b.Keys && OnlyReveals(s, s1) && OnlyReveals(s1, s2)
    requires Closed(b, s, s1) && Closed(b, s1, s2)
    ensures Closed(b, s, s2)
  {
    forall z, q | Uncovered(s, s2, z) && b[z] == 0 && q in b && Near(z, q)
      ensures s2[q] != Hidden
    {
      if s1[z] == Hidden {
        assert Uncovered(s1, s2, z);
      } else {
        assert Uncovered(s, s1, z);
      }
    }
  }

  /** A zero path of an earlier phase or of a later one is still a zero path
      of the two phases together. */
  lemma PathWidens(b: Board, s: View, s1: View, s2: View, path: seq<Pos>)
    requires s.Keys == b.Keys && OnlyReveals(s, s1) && OnlyReveals(s1, s2)
    requires ZeroPath(b, s, s1, path) || ZeroPath(b, s1, s2, path)
    ensures ZeroPath(b, s, s2, path)
  {
    forall i | 0 <= i < |path| - 1
      ensures Uncovered(s, s2, path[i])
    {
      if ZeroPath(b, s, s1, path) {
        assert Uncovered(s, s1, path[i]);
      } else {
        assert Uncovered(s1, s2, path[i]);
      }
    }
  }

  /** An uncovered zero cell next to the start of a zero path extends it. */
  lemma PathPrepend(b: Board, s: View, s': View, y: Pos, path: seq<Pos>)
    requires s.Keys == b.Keys && ZeroPath(b, s, s', path)
    requires Uncovered(s, s', y) && b[y] == 0 && Near(y, path[0])
    ensures ZeroPath(b, s, s', [y] + path)
    ensures ([y] + path)[0] == y && ([y] + path)[|[y] + path| - 1] == path[|path| - 1]
  {
    var longer := [y] + path;
    forall i | 0 <= i < |longer| - 1
      ensures Uncovered(s, s', longer[i]) && b[longer[i]] == 0 && Near(longer[i], longer[i + 1])
    {
      if i > 0 {
        assert longer[i] == path[i - 1] && longer[i + 1] == path[i];
      }
    }
  }

  /** Completeness of the cascade: after a reveal, no uncovered zero cell has
      a hidden neighbour left. */
  lemma {:induction false} RevealClosed(b: Board, s: View, p: Pos)
    requires s.Keys == b.Keys
    ensures Closed(b, s, Reveal(b, s, p))
    decreases |Cells(s, IsHidden)|, 0
  {
    if p !in b || s[p] == Revealed || s[p] == Flagged {
    } else {
      var s1 := s[p := Revealed];
      CellsAfterPut(s, p, Revealed, IsHidden);
      if b[p] == 0 {
        var s2 := RevealAround(b, s1, p, 0);
        AroundClosed(b, s1, p, 0);
        AroundUncoversWindow(b, s1, p, 0);
        ClosedAfterTarget(b, s, s1, s2, p);
      }
    }
  }

  /** Revealing a zero target and then all of its window leaves a closed
      reveal when the window phase is closed by itself. */
  lemma ClosedAfterTarget(b: Board, s: View, s1: View, s2: View, p: Pos)
    requires s.Keys == b.Keys && p in b && b[p] == 0 && s[p] == Hidden && s1 == s[p := Revealed]
    requires OnlyReveals(s1, s2) && Closed(b, s1, s2)
    requires forall j :: 0 <= j < |Offsets| && j != Centre && Shift(p, j) in b ==> s2[Shift(p, j)] != Hidden
    ensures Closed(b, s, s2)
  {
    forall z, q | Uncovered(s, s2, z) && b[z] == 0 && q in b && Near(z, q)
      ensures s2[q] != Hidden
    {
      if z == p {
        if q != p {
          var j := OffsetIndex(p, q);
        }
      } else {
        assert Uncovered(s1, s2, z);
      }
    }
  }

  /** The neighbour loop keeps the reveal closed. */
  lemma {:induction false} AroundClosed(b: Board, s: View, z: Pos, k: nat)
    requires s.Keys == b.Keys && z in b && k <= |Offsets|
    ensures Closed(b, s, RevealAround(b, s, z, k))
    decreases |Cells(s, IsHidden)|, 1, |Offsets| - k
  {
    if k < |Offsets| {
      var q := Shift(z, k);
      if k == Centre || q !in b {
        AroundClosed(b, s, z, k + 1);
      } else {
        var s1 := Reveal(b, s, q);
        var s2 := RevealAround(b, s1, z, k + 1);
        RevealClosed(b, s, q);
        AroundClosed(b, s1, z, k + 1);
        ClosedTrans(b, s, s1, s2);
      }
    }
  }

  /** The neighbour loop leaves no in-grid neighbour from offset `k` on hidden. */
  lemma {:induction false} AroundUncoversWindow(b: Board, s: View, z: Pos, k: nat)
    requires s.Keys == b.Keys && z in b && k <= |Offsets|
    ensures forall j :: k <= j < |Offsets| && j != Centre && Shift(z, j) in b ==>
      RevealAround(b, s, z, k)[Shift(z, j)] != Hidden
    decreases |Offsets| - k
  {
    if k < |Offsets| {
      var q := Shift(z, k);
      var s1 := if k == Centre || q !in b then s else Reveal(b, s, q);
      var s2 := RevealAround(b, s1, z, k + 1);
      AroundUncoversWindow(b, s1, z, k + 1);
      forall j | k <= j < |Offsets| && j != Centre && Shift(z, j) in b
        ensures s2[Shift(z, j)] != Hidden
      {
        if j == k {
          assert s1[q] != Hidden;
        } else {
          assert k + 1 <= j;
        }
      }
    }
  }

  /** Soundness of the cascade: every cell a reveal uncovers is reached from
      the target along a zero path, so the reveal never leaves the region of
      zero cells connected to the target and their borders. */
  lemma {:induction false} RevealSpreadsFromZeros(b: Board, s: View, p: Pos)
    requires s.Keys == b.Keys
    ensures forall q :: Uncovered(s, Reveal(b, s, p), q) ==> ZeroChain(b, s, Reveal(b, s, p), p, q)
    decreases |Cells(s, IsHidden)|, 0
  {
    if p !in b || s[p] == Revealed || s[p] == Flagged {
    } else {
      var s1 := s[p := Revealed];
      CellsAfterPut(s, p, Revealed, IsHidden);
      if b[p] == 0 {
        var s2 := RevealAround(b, s1, p, 0);
        AroundSpreadsFromZeros(b, s1, p, 0);
        assert Uncovered(s, s2, p);
        forall q | Uncovered(s, s2, q)
          ensures ZeroChain(b, s, s2, p, q)
        {
          if q == p {
            assert ZeroPath(b, s, s2, [p]);
          } else {
            assert Uncovered(s1, s2, q);
            var path :| ZeroPath(b, s1, s2, path) && Near(p, path[0]) && path[|path| - 1] == q;
            PathWidens(b, s, s1, s2, path);
            PathPrepend(b, s, s2, p, path);
          }
        }
      } else {
        forall q | Uncovered(s, s1, q)
          ensures ZeroChain(b, s, s1, p, q)
        {
          assert ZeroPath(b, s, s1, [p]);
        }
      }
    }
  }

  /** Every cell the neighbour loop of `z` uncovers is reached along a zero
      path that starts in the window of `z`. */
  lemma {:induction false} AroundSpreadsFromZeros(b: Board, s: View, z: Pos, k: nat)
    requires s.Keys == b.Keys && z in b && k <= |Offsets|
    ensures forall q :: Uncovered(s, RevealAround(b, s, z, k), q) ==>
      WindowChain(b, s, RevealAround(b, s, z, k), z, q)
    decreases |Cells(s, IsHidden)|, 1, |Offsets| - k
  {
    if k < |Offsets| {
      var q := Shift(z, k);
      var s2 := RevealAround(b, s, z, k);
      var s1 := if k == Centre || q !in b then s else Reveal(b, s, q);
      AroundSpreadsFromZeros(b, s1, z, k + 1);
      if !(k == Centre || q !in b) {
        RevealSpreadsFromZeros(b, s, q);
      }
      forall x | Uncovered(s, s2, x)
        ensures WindowChain(b, s, s2, z, x)
      {
        if s1[x] == Hidden {
          assert Uncovered(s1, s2, x);
          var path :| ZeroPath(b, s1, s2, path) && Near(z, path[0]) && path[|path| - 1] == x;
          PathWidens(b, s, s1, s2, path);
        } else {
          assert Uncovered(s, s1, x);
          var path :| ZeroPath(b, s, s1, path) && path[0] == q && path[|path| - 1] == x;
          PathWidens(b, s, s1, s2, path);
        }
      }
    }
  }

  /** On a correctly counted board a zero cell has no mine in its window. */
  lemma ZeroHasNoMineNear(b: Board, z: Pos, q: Pos)
    requires WellCounted(b)
    requires z in b && q in b && b[z] == 0 && Near(z, q)
    ensures b[q] != MINE
  {
    assert |MinesNear(Mines(b), z)| == 0;
    assert q in Mines(b) ==> q in MinesNear(Mines(b), z);
  }

  /** On a correctly counted board, a cascade started at a safe cell never
      reveals a mine: only zero cells expand, and a zero cell has no mine
      around it. */
  lemma CascadeNeverUncoversMine(b: Board, s: View, p: Pos)
    requires s.Keys == b.Keys && WellCounted(b)
    requires p in b ==> b[p] != MINE
    ensures forall q :: Uncovered(s, Reveal(b, s, p), q) ==> b[q] != MINE
  {
    var s' := Reveal(b, s, p);
    RevealSpreadsFromZeros(b, s, p);
    forall q | Uncovered(s, s', q)
      ensures b[q] != MINE
    {
      var path :| ZeroPath(b, s, s', path) && path[0] == p && path[|path| - 1] == q;
      if |path| > 1 {
        var y := path[|path| - 2];
        ZeroHasNoMineNear(b, y, q);
      }
    }
  }

  // ---------------------------------------------------------------------------
  // Win check (check_win) and the loss reveal
  // ---------------------------------------------------------------------------

  /** Every safe cell is revealed; flags and the state of mine cells do not matter. */
  predicate Cleared(b: Board, s: View)
    requires s.Keys == b.Keys
  {
    forall p | p in b :: b[p] != MINE ==> s[p] == Revealed
  }

  /** check_win: scans the rows x cols board in row-major order and stops at
      the first safe cell that is not revealed. */
  method CheckWin(b: Board, s: View, rows: nat, cols: nat) returns (won: bool)
    requires Framed(b, rows, cols) && s.Keys == b.Keys
    ensures won <==> forall p :: p in b && b[p] != MINE ==> s[p] == Revealed
  {
    var r := 0;
    while r < rows
      invariant 0 <= r <= rows
      invariant forall p :: p in b && p.r < r && b[p] != MINE ==> s[p] == Revealed
    {
      var c := 0;
      while c < cols
        invariant 0 <= c <= cols
        invariant forall p :: p in b && RowMajorBefore(p, r, c) && b[p] != MINE ==> s[p] == Revealed
      {
        assert Pos(r, c) in b;
        if b[Pos(r, c)] != MINE && s[Pos(r, c)] != Revealed {
          return false;
        }
        c := c + 1;
      }
      r := r + 1;
    }
    return true;
  }

  /** Lines 200-203: every mine cell becomes revealed, flagged or not; the
      other cells keep their state. */
  function ShowMines(b: Board, s: View): (s': View)
    requires s.Keys == b.Keys
    ensures s'.Keys == s.Keys
    ensures Cells(s', IsRevealed) == Cells(s, IsRevealed) + Mines(b)
    ensures forall p {:trigger s'[p]} :: p in s && p !in Mines(b) ==> s'[p] == s[p]
  {
    map p | p in s :: if b[p] == MINE then Revealed else s[p]
  }

  // ---------------------------------------------------------------------------
  // Flags and the mines-left counter
  // ---------------------------------------------------------------------------

  /** Lines 210-214: hidden becomes flagged, flagged becomes hidden, revealed
      stays revealed. */
  function ToggleFlag(s: View, p: Pos): (s': View)
    requires p in s
    ensures s'.Keys == s.Keys
    ensures forall q {:trigger s'[q]} :: q in s && q != p ==> s'[q] == s[q]
    ensures s[p] == Revealed <==> s'[p] == Revealed
    ensures s[p] != Revealed ==> s'[p] != s[p]
  {
    match s[p]
    case Hidden => s[p := Flagged]
    case Flagged => s[p := Hidden]
    case Revealed => s
  }

  /** Two right-clicks on the same cell restore its state. */
  lemma ToggleTwice(s: View, p: Pos)
    requires p in s
    ensures ToggleFlag(ToggleFlag(s, p), p) == s
  {
  }

  /** Lines 168-169: the mine count less the number of flagged cells,
      not clamped at zero: it never exceeds the mine count, equals it
      exactly when nothing is flagged, and falls by at most one per cell. */
  function MinesLeft(minesCount: int, s: View): (left: int)
    ensures minesCount - |s| <= left <= minesCount
    ensures left == minesCount <==> Cells(s, IsFlagged) == {}
  {
    SubsetSize(Cells(s, IsFlagged), s.Keys);
    minesCount - |Cells(s, IsFlagged)|
  }

  /** Each flag placed lowers the counter by one and each flag removed raises
      it by one; right-clicking a revealed cell leaves it alone. */
  lemma ToggleMovesMinesLeft(minesCount: int, s: View, p: Pos)
    requires p in s
    ensures s[p] == Hidden ==> MinesLeft(minesCount, ToggleFlag(s, p)) == MinesLeft(minesCount, s) - 1
    ensures s[p] == Flagged ==> MinesLeft(minesCount, ToggleFlag(s, p)) == MinesLeft(minesCount, s) + 1
    ensures s[p] == Revealed ==> MinesLeft(minesCount, ToggleFlag(s, p)) == MinesLeft(minesCount, s)
  {
    if s[p] == Hidden {
      CellsAfterPut(s, p, Flagged, IsFlagged);
    } else if s[p] == Flagged {
      CellsAfterPut(s, p, Hidden, IsFlagged);
    }
  }

  /** The counter lies between the mine count less the number of cells (every
      cell flagged) and the mine count (no flag), and can go negative. */
  lemma MinesLeftRange(minesCount: int, rows: nat, cols: nat, s: View)
    requires Framed(s, rows, cols)
    ensures minesCount - rows * cols <= MinesLeft(minesCount, s) <= minesCount
  {
    CellsAtMost(s, rows, cols, IsFlagged);
  }
}

=== FILE: web.dfy ===
/** The game logic of the browser front end (script.js): the difficulty
    table, mine placement by cell number, the neighbour counts, the recursive
    reveal with its revealed-cell counter, flagging with its flag counter,
    the loss reveal and the counter-based win check. The DOM, the timers and
    the alerts are left out; the page-level variables are fields of `Game`. */
module Web {
  import opened Grid

  /** One cell record (lines 33-39, the DOM element left out). */
  datatype Cell = Cell(isMine: bool, isRevealed: bool, isFlagged: bool, adjacentMines: int)

  /** `gameOver` together with how the game ended: `Lost` is
      `endGame(false)`, `Won` is `endGame(true)`. */
  datatype Status = Playing | Lost | Won

  /** The cell records by position (the array of arrays `board`). */
  type Board = map<Pos, Cell>

  /** The page-level variables of lines 6-11: `rows`, `cols` and
      `totalMines` in `cfg`, the board, the two counters and the end state. */
  datatype Game = Game(cfg: Dims, board: Board, revealedCount: int, flaggedCount: int, status: Status)

  predicate IsMineCell(c: Cell) { c.isMine }
  predicate IsShown(c: Cell) { c.isRevealed }
  predicate IsUnshown(c: Cell) { !c.isRevealed }
  predicate IsFlagCell(c: Cell) { c.isFlagged }

  /** The cells of `b` that hold a mine. */
  function MineSet(b: Board): set<Pos> {
    Cells(b, IsMineCell)
  }

  /** The board is framed by the game's own rows and columns. */
  predicate WellFormed(g: Game) {
    Framed(g.board, g.cfg.rows, g.cfg.cols)
  }

  /** Both counters at the targets the win check compares them with: every
      safe cell counted as revealed and as many flags as mines. */
  predicate AtTarget(g: Game) {
    g.revealedCount == g.cfg.rows * g.cfg.cols - g.cfg.mines && g.flaggedCount == g.cfg.mines
  }

  /** Every safe cell records the number of mines in its window clipped to
      the board. */
  ghost predicate Counted(b: Board) {
    forall p {:trigger b[p]} :: p in b && !b[p].isMine ==> b[p].adjacentMines == |MinesNear(MineSet(b), p)|
  }

  // ---------------------------------------------------------------------------
  // Difficulty and board set-up
  // ---------------------------------------------------------------------------

  /** Lines 14-25: the three named levels set their dimensions; any other
      value leaves the previous ones in place. */
  function SetDifficulty(level: string, prev: Dims): (d: Dims)
    ensures level == "easy" ==> d == Easy
    ensures level == "medium" ==> d == Medium
    ensures level == "hard" ==> d == Hard
    ensures level !in ["easy", "medium", "hard"] ==> d == prev
    ensures Playable(prev) ==> Playable(d)
  {
    if level == "easy" then Easy
    else if level == "medium" then Medium
    else if level == "hard" then Hard
    else prev
  }

  /** Choosing the same level twice is choosing it once. */
  lemma SetDifficultyIdempotent(level: string, prev: Dims)
    ensures SetDifficulty(level, SetDifficulty(level, prev)) == SetDifficulty(level, prev)
  {
  }

  /** Lines 28-43: a rows x cols board of blank records: no mine, nothing
      revealed or flagged, and every count at zero. */
  function Blank(rows: int, cols: int): (b: Board)
    ensures Framed(b, rows, cols)
    ensures MineSet(b) == {} && Cells(b, IsShown) == {} && Cells(b, IsFlagCell) == {}
    ensures Cells(b, IsUnshown) == AllCells(rows, cols)
    ensures forall p {:trigger b[p]} :: p in b ==> b[p].adjacentMines == 0
  {
    map p | p in AllCells(rows, cols) :: Cell(false, false, false, 0)
  }

  /** Lines 53-54: the cell numbered `pos` in row-major order. */
  function PosOf(pos: int, cols: int): (p: Pos)
    requires 0 < cols
    ensures 0 <= p.c < cols && IndexOf(p, cols) == pos
    ensures 0 <= pos <==> 0 <= p.r
  {
    Pos(pos / cols, pos % cols)
  }

  /** The row-major number of a cell, the inverse of PosOf. */
  function IndexOf(p: Pos, cols: int): int {
    p.r * cols + p.c
  }

  /** Every number below rows * cols names a cell of the board, and numbering
      the cell gives the number back. */
  lemma PosOfInFrame(pos: int, rows: int, cols: int)
    requires 0 < cols && 0 <= pos < rows * cols
    ensures InFrame(PosOf(pos, cols), rows, cols)
    ensures IndexOf(PosOf(pos, cols), cols) == pos
  {
    var q := pos / cols;
    assert pos == q * cols + pos % cols;
    MulMono(rows, q, cols);
  }

  /** Every cell of the board has a number below rows * cols, and it names
      that cell. */
  lemma IndexOfInRange(p: Pos, rows: int, cols: int)
    requires 0 < cols && InFrame(p, rows, cols)
    ensures 0 <= IndexOf(p, cols) < rows * cols
    ensures PosOf(IndexOf(p, cols), cols) == p
  {
    MulMono(p.r, rows - 1, cols);
    var n := IndexOf(p, cols);
    assert n == p.r * cols + p.c && 0 <= p.c < cols;
    assert n / cols == p.r && n % cols == p.c by {
      DivUnique(n, cols, p.r, p.c);
    }
  }

  /** Quotient and remainder are the only pair that rebuilds `n`. */
  lemma DivUnique(n: int, d: int, q: int, m: int)
    requires 0 < d && n == q * d + m && 0 <= m < d
    ensures n / d == q && n % d == m
  {
    var q', m' := n / d, n % d;
    assert n == q' * d + m';
    assert (q' - q) * d == m - m';
    MulMono(1, q' - q, d);
    MulMono(1, q - q', d);
  }

  /** Different numbers in range name different cells. */
  lemma PosOfInjective(a: int, b: int, rows: int, cols: int)
    requires 0 < cols && 0 <= a < rows * cols && 0 <= b < rows * cols
    requires PosOf(a, cols) == PosOf(b, cols)
    ensures a == b
  {
    PosOfInFrame(a, rows, cols);
    PosOfInFrame(b, rows, cols);
  }

  /** The cells named by a set of numbers. */
  ghost function Named(positions: set<int>, cols: int): set<Pos>
    requires 0 < cols
  {
    set pos | pos in positions :: PosOf(pos, cols)
  }

  /** Lines 46-57: draws cell numbers from `samples` (the values of
      `Math.floor(Math.random() * rows * cols)`) until `totalMines` distinct
      ones are collected, then sets `isMine` on the cells they name. On a
      blank board this marks exactly `totalMines` cells. `used` is the number
      of draws consumed: the positions are exactly the numbers among those
      draws, and the loop stopped at the first draw that completed the set. */
  method PlaceMines(board: Board, cfg: Dims, samples: seq<int>) returns (board': Board, positions: set<int>, used: nat)
    requires Framed(board, cfg.rows, cfg.cols) && 0 < cfg.cols
    requires forall i :: 0 <= i < |samples| ==> 0 <= samples[i] < cfg.rows * cfg.cols
    requires cfg.mines <= |Elems(samples)|
    ensures Framed(board', cfg.rows, cfg.cols)
    ensures used <= |samples| && positions == Elems(samples[..used])
    ensures forall k :: 0 <= k < used ==> |Elems(samples[..k])| < cfg.mines
    ensures 0 <= cfg.mines ==> |positions| == cfg.mines
    ensures MineSet(board') == MineSet(board) + Named(positions, cfg.cols)
    ensures 0 <= cfg.mines && MineSet(board) == {} ==> |MineSet(board')| == cfg.mines
    ensures OnlyMines(board, board')
  {
    positions, used := DrawDistinct(cfg.mines, samples);
    board' := MarkMines(board, cfg.rows, cfg.cols, samples[..used]);
  }

  /** Lines 52-56: sets `isMine` on the cell each drawn number names. The set
      hands its numbers over in the order they were first drawn; walking the
      draws in order visits the same numbers in the same order, and a repeated
      draw marks an already marked cell again, which changes nothing. */
  method MarkMines(board: Board, rows: int, cols: int, draws: seq<int>) returns (board': Board)
    requires Framed(board, rows, cols) && 0 < cols
    requires forall i :: 0 <= i < |draws| ==> 0 <= draws[i] < rows * cols
    ensures OnlyMines(board, board')
    ensures MineSet(board') == MineSet(board) + Named(Elems(draws), cols)
    ensures |Named(Elems(draws), cols)| == |Elems(draws)|
  {
    board' := board;
    var i := 0;
    while i < |draws|
      invariant 0 <= i <= |draws|
      invariant OnlyMines(board, board')
      invariant MineSet(board') == MineSet(board) + Named(Elems(draws[..i]), cols)
      invariant |Named(Elems(draws[..i]), cols)| == |Elems(draws[..i])|
    {
      var p := PosOf(draws[i], cols);
      MarkStep(board, board', draws, i, rows, cols);
      NamedCountStep(draws, i, rows, cols);
      board' := board'[p := board'[p].(isMine := true)];
      i := i + 1;
    }
    assert draws[..i] == draws;
  }

  /** From `b` to `b'` only the mine bits may change. */
  ghost predicate OnlyMines(b: Board, b': Board) {
    b'.Keys == b.Keys &&
    forall p {:trigger b'[p]} :: p in b ==>
      b'[p].isRevealed == b[p].isRevealed && b'[p].isFlagged == b[p].isFlagged &&
      b'[p].adjacentMines == b[p].adjacentMines
  }

  /** Marking the cell of one more draw extends the marked set by the cell
      that draw names, and nothing but the mine bit changes. */
  lemma MarkStep(board: Board, b: Board, draws: seq<int>, i: int, rows: int, cols: int)
    requires Framed(board, rows, cols) && 0 < cols && 0 <= i < |draws|
    requires forall j :: 0 <= j < |draws| ==> 0 <= draws[j] < rows * cols
    requires OnlyMines(board, b)
    requires MineSet(b) == MineSet(board) + Named(Elems(draws[..i]), cols)
    ensures PosOf(draws[i], cols) in b
    ensures var p := PosOf(draws[i], cols);
      var b' := b[p := b[p].(isMine := true)];
      OnlyMines(board, b') &&
      MineSet(b') == MineSet(board) + Named(Elems(draws[..i + 1]), cols)
  {
    var p := PosOf(draws[i], cols);
    PosOfInFrame(draws[i], rows, cols);
    NamedStep(draws, i, rows, cols);
    var cell := b[p].(isMine := true);
    CellsAfterPut(b, p, cell, IsMineCell);
    OnlyMinesStep(board, b, p, cell);
  }

  /** Distinct draws keep naming distinct cells. */
  lemma NamedCountStep(draws: seq<int>, i: int, rows: int, cols: int)
    requires 0 < cols && 0 <= i < |draws|
    requires forall j :: 0 <= j < |draws| ==> 0 <= draws[j] < rows * cols
    requires |Named(Elems(draws[..i]), cols)| == |Elems(draws[..i])|
    ensures |Named(Elems(draws[..i + 1]), cols)| == |Elems(draws[..i + 1])|
  {
    NamedStep(draws, i, rows, cols);
    NamedSizeStep(Elems(draws[..i]), Named(Elems(draws[..i]), cols), draws[i], PosOf(draws[i], cols));
  }

  /** Adding a number and the cell it names keeps two sets the same size
      when the number is new exactly when the cell is. */
  lemma NamedSizeStep<A, B>(xs: set<A>, ys: set<B>, x: A, y: B)
    requires |ys| == |xs| && (x in xs <==> y in ys)
    ensures |ys + {y}| == |xs + {x}|
  {
    if x !in xs {
      assert |xs + {x}| == |xs| + 1;
      assert |ys + {y}| == |ys| + 1;
    } else {
      assert xs + {x} == xs;
      assert ys + {y} == ys;
    }
  }

  /** Setting the mine bit of one cell keeps OnlyMines. */
  lemma OnlyMinesStep(b: Board, b': Board, p: Pos, cell: Cell)
    requires OnlyMines(b, b') && p in b'
    requires cell == b'[p].(isMine := true)
    ensures OnlyMines(b, b'[p := cell])
  {
  }

  /** One more draw names one more cell exactly when it is a new number. */
  lemma NamedStep(draws: seq<int>, i: int, rows: int, cols: int)
    requires 0 < cols && 0 <= i < |draws|
    requires forall j :: 0 <= j < |draws| ==> 0 <= draws[j] < rows * cols
    ensures Elems(draws[..i + 1]) == Elems(draws[..i]) + {draws[i]}
    ensures Named(Elems(draws[..i + 1]), cols) == Named(Elems(draws[..i]), cols) + {PosOf(draws[i], cols)}
    ensures draws[i] in Elems(draws[..i]) <==> PosOf(draws[i], cols) in Named(Elems(draws[..i]), cols)
  {
    assert draws[..i + 1] == draws[..i] + [draws[i]];
    var before := Elems(draws[..i]);
    if PosOf(draws[i], cols) in Named(before, cols) {
      var other :| other in before && PosOf(other, cols) == PosOf(draws[i], cols);
      assert other in draws;
      PosOfInjective(other, draws[i], rows, cols);
    }
  }

  /** Lines 64-79: the mines in the clipped window of (r, c), scanning the
      nine offsets row by row and skipping those off the board. */
  method CountAround(board: Board, rows: int, cols: int, r: int, c: int) returns (count: int)
    requires Framed(board, rows, cols) && InFrame(Pos(r, c), rows, cols)
    ensures count == |MinesNear(MineSet(board), Pos(r, c))|
  {
    ghost var near := MinesNear(MineSet(board), Pos(r, c));
    assert forall q {:trigger q in near} :: q in near ==> r - 1 <= q.r < r + 2 && c - 1 <= q.c < c + 2;
    count := 0;
    var dr := -1;
    assert ScannedBefore(near, r + dr, c - 1) == {};
    while dr <= 1
      invariant -1 <= dr <= 2
      invariant count == |ScannedBefore(near, r + dr, c - 1)|
    {
      count := WindowRow(board, rows, cols, r, c, dr, count);
      ScanNextRow(near, r + dr, r + (dr + 1), c - 1, c + 2);
      dr := dr + 1;
    }
    assert ScannedBefore(near, r + 2, c - 1) == near;
  }

  /** Lines 66-77: the inner loop of the window scan over row r + dr. */
  method WindowRow(board: Board, rows: int, cols: int, r: int, c: int, dr: int, before: int) returns (count: int)
    requires Framed(board, rows, cols) && -1 <= dr <= 1
    requires before == |ScannedBefore(MinesNear(MineSet(board), Pos(r, c)), r + dr, c - 1)|
    ensures count == |ScannedBefore(MinesNear(MineSet(board), Pos(r, c)), r + dr, c + 2)|
  {
    ghost var near := MinesNear(MineSet(board), Pos(r, c));
    count := before;
    var dc := -1;
    while dc <= 1
      invariant -1 <= dc <= 2
      invariant count == |ScannedBefore(near, r + dr, c + dc)|
    {
      var rr, cc := r + dr, c + dc;
      MineAtNear(board, rows, cols, Pos(r, c), Pos(rr, cc));
      ScanStep(near, rr, cc, c + (dc + 1));
      if MineAt(board, rows, cols, rr, cc) {
        count := count + 1;
      }
      dc := dc + 1;
    }
  }

  /** Lines 68-76: (rr, cc) lies on the board and holds a mine. */
  predicate MineAt(board: Board, rows: int, cols: int, rr: int, cc: int): (m: bool)
    requires Framed(board, rows, cols)
    ensures m <==> Pos(rr, cc) in MineSet(board)
  {
    rr >= 0 && rr < rows && cc >= 0 && cc < cols && board[Pos(rr, cc)].isMine
  }

  /** Inside the window of `p`, the bounds-checked mine test picks out
      exactly the mines counted around `p`. */
  lemma MineAtNear(board: Board, rows: int, cols: int, p: Pos, q: Pos)
    requires Framed(board, rows, cols) && Near(p, q)
    ensures MineAt(board, rows, cols, q.r, q.c) <==> q in MinesNear(MineSet(board), p)
  {
    assert q == Pos(q.r, q.c);
  }

  /** From `b` to `b'` only the counts of safe cells may change. */
  ghost predicate OnlyCounts(b: Board, b': Board) {
    b'.Keys == b.Keys &&
    forall p {:trigger b'[p]} :: p in b ==>
      b'[p].isMine == b[p].isMine && b'[p].isRevealed == b[p].isRevealed && b'[p].isFlagged == b[p].isFlagged &&
      (b[p].isMine ==> b'[p].adjacentMines == b[p].adjacentMines)
  }

  /** Every safe cell of `b` before (r, c) in row-major order has its window
      count in `b'`. */
  ghost predicate CountedBefore(b: Board, b': Board, r: int, c: int)
    requires b'.Keys == b.Keys
  {
    forall p {:trigger b'[p]} :: p in b && !b[p].isMine && RowMajorBefore(p, r, c) ==>
      b'[p].adjacentMines == |MinesNear(MineSet(b), p)|
  }

  /** Writing the window count of the safe cell (r, c) extends the counted
      prefix by that cell and changes nothing else. */
  lemma CountStep(board: Board, b: Board, rows: int, cols: int, r: int, c: int, count: int)
    requires Framed(board, rows, cols) && InFrame(Pos(r, c), rows, cols)
    requires OnlyCounts(board, b) && MineSet(b) == MineSet(board)
    requires CountedBefore(board, b, r, c)
    requires !b[Pos(r, c)].isMine && count == |MinesNear(MineSet(b), Pos(r, c))|
    ensures var b' := b[Pos(r, c) := b[Pos(r, c)].(adjacentMines := count)];
      OnlyCounts(board, b') && MineSet(b') == MineSet(board) && CountedBefore(board, b', r, c + 1)
  {
    var p := Pos(r, c);
    var cell := b[p].(adjacentMines := count);
    CellsAfterPut(b, p, cell, IsMineCell);
  }

  /** Lines 60-83: every safe cell gets its window count; mine cells keep
      the count they had (0 on a fresh board) and nothing else changes. */
  method CalculateAdjacent(board: Board, rows: nat, cols: nat) returns (board': Board)
    requires Framed(board, rows, cols)
    ensures OnlyCounts(board, board') && MineSet(board') == MineSet(board)
    ensures Counted(board')
  {
    board' := board;
    var r := 0;
    while r < rows
      invariant 0 <= r <= rows
      invariant OnlyCounts(board, board') && MineSet(board') == MineSet(board)
      invariant CountedBefore(board, board', r, 0)
    {
      board' := AdjacentRow(board, board', rows, cols, r);
      r := r + 1;
    }
    assert CountedBefore(board, board', rows, 0);
  }

  /** One pass of the inner loop of lines 61-82 over row `r`. */
  method AdjacentRow(board: Board, before: Board, rows: nat, cols: nat, r: nat) returns (board': Board)
    requires Framed(board, rows, cols) && r < rows
    requires OnlyCounts(board, before) && MineSet(before) == MineSet(board)
    requires CountedBefore(board, before, r, 0)
    ensures OnlyCounts(board, board') && MineSet(board') == MineSet(board)
    ensures CountedBefore(board, board', r + 1, 0)
  {
    board' := before;
    var c := 0;
    while c < cols
      invariant 0 <= c <= cols
      invariant OnlyCounts(board, board') && MineSet(board') == MineSet(board)
      invariant CountedBefore(board, board', r, c)
    {
      var p := Pos(r, c);
      assert p in board';
      if !board'[p].isMine {
        var count := CountAround(board', rows, cols, r, c);
        CountStep(board, board', rows, cols, r, c, count);
        board' := board'[p := board'[p].(adjacentMines := count)];
      } else {
        assert CountedBefore(board, board', r, c + 1);
      }
      c := c + 1;
    }
  }

  // ---------------------------------------------------------------------------
  // Reveal, loss and win
  // ---------------------------------------------------------------------------

  /** From `b` to `b'` the only change is cells becoming revealed. */
  ghost predicate ShowsMore(b: Board, b': Board) {
    b'.Keys == b.Keys &&
    forall p {:trigger b'[p]} :: p in b ==>
      b'[p].isMine == b[p].isMine && b'[p].isFlagged == b[p].isFlagged &&
      b'[p].adjacentMines == b[p].adjacentMines && (b[p].isRevealed ==> b'[p].isRevealed)
  }

  /** Lines 204-214: every mine becomes revealed, flagged or not. */
  function RevealAllMines(b: Board): (b': Board)
    ensures ShowsMore(b, b')
    ensures Cells(b', IsShown) == Cells(b, IsShown) + MineSet(b)
    ensures |Cells(b', IsUnshown)| <= |Cells(b, IsUnshown)|
  {
    var b' := map p | p in b :: if b[p].isMine && !b[p].isRevealed then b[p].(isRevealed := true) else b[p];
    assert Cells(b', IsUnshown) <= Cells(b, IsUnshown);
    SubsetSize(Cells(b', IsUnshown), Cells(b, IsUnshown));
    b'
  }

  /** Lines 193-201: the game is over; a loss also reveals every mine. */
  function EndGame(g: Game, won: bool): (g': Game)
    ensures g'.status == (if won then Won else Lost)
    ensures g'.cfg == g.cfg && g'.revealedCount == g.revealedCount && g'.flaggedCount == g.flaggedCount
    ensures won ==> g'.board == g.board
    ensures !won ==> ShowsMore(g.board, g'.board) && Cells(g'.board, IsShown) == Cells(g.board, IsShown) + MineSet(g.board)
  {
    if won then g.(status := Won)
    else g.(status := Lost, board := RevealAllMines(g.board))
  }

  /** Lines 217-225: a running game is won when the revealed-cell counter
      reaches the number of safe cells and the flag counter the number of
      mines; the board itself is not consulted. */
  function CheckWin(g: Game): (g': Game)
    ensures g' == g || (g.status == Playing && g' == g.(status := Won))
    ensures g'.status == Won <==>
      g.status == Won ||
      (g.status == Playing && AtTarget(g))
  {
    if g.status != Playing then g
    else if AtTarget(g) then EndGame(g, true)
    else g
  }

  /** Lines 109-142: once over, or on a revealed or flagged cell, a no-op.
      Otherwise reveals the cell and counts it; a mine loses the game on the
      spot; a zero cell goes on with its in-board, unrevealed neighbours; the
      win check closes every call that did not lose. Every call that gets
      past the guards leaves one unrevealed cell fewer, which bounds the
      recursion. The call keeps the page invariant, and on a correctly
      counted board a safe cell never loses the game. */
  method HandleReveal(g: Game, p: Pos) returns (g': Game)
    requires WellFormed(g) && p in g.board
    ensures Grows(g, g')
    ensures !Acts(g, p) ==> g' == g
    ensures Acts(g, p) ==> g'.board[p].isRevealed
    ensures Acts(g, p) && g.board[p].isMine ==>
      g'.status == Lost && g'.revealedCount == g.revealedCount + 1 && g'.board == RevealAllMines(g.board[p := g.board[p].(isRevealed := true)])
    ensures Acts(g, p) && !g.board[p].isMine ==> (g'.status == Playing ==> !AtTarget(g'))
    ensures Acts(g, p) && !g.board[p].isMine && g.board[p].adjacentMines == 0 ==> Settled(g', p, |Offsets|)
    ensures Inv(g) ==> Inv(g')
    ensures Counted(g.board) && !g.board[p].isMine ==> g'.status != Lost || g.status == Lost
    decreases |Cells(g.board, IsUnshown)|, 0
  {
    if g.status != Playing {
      return g;
    }
    var cell := g.board[p];
    if cell.isRevealed || cell.isFlagged {
      return g;
    }
    var g1 := g.(board := g.board[p := cell.(isRevealed := true)], revealedCount := g.revealedCount + 1);
    FirstReveal(g, p);
    if cell.isMine {
      g' := EndGame(g1, false);
      GrowsTrans(g, g1, g');
      return;
    }
    g' := RevealSafe(g1, p);
    GrowsTrans(g, g1, g');
  }

  /** Lines 110-112: the reveal handler gets past its guards. */
  predicate Acts(g: Game, p: Pos)
    requires p in g.board
  {
    g.status == Playing && !g.board[p].isRevealed && !g.board[p].isFlagged
  }

  /** Lines 123-141, once a safe cell has been revealed and counted: a zero
      cell goes on with its neighbours, then the win check runs. It never
      loses the game on a correctly counted board. */
  method RevealSafe(g: Game, p: Pos) returns (g': Game)
    requires WellFormed(g) && p in g.board && !g.board[p].isMine
    ensures Grows(g, g')
    ensures g'.status == Playing ==> !AtTarget(g')
    ensures g.board[p].adjacentMines == 0 ==> Settled(g', p, |Offsets|)
    ensures Inv(g) ==> Inv(g')
    ensures Counted(g.board) ==> g'.status != Lost || g.status == Lost
    decreases |Cells(g.board, IsUnshown)|, 2
  {
    var g2 := g;
    if g.board[p].adjacentMines == 0 {
      g2 := RevealNeighbours(g, p);
    }
    if Inv(g2) {
      CheckWinKeepsInv(g2);
    }
    g' := CheckWin(g2);
    GrowsTrans(g, g2, g');
    if g.board[p].adjacentMines == 0 {
      SettledAtEnd(g2, g', p);
    }
  }

  /** The win check keeps the window of `z` settled. */
  lemma SettledAtEnd(g: Game, g': Game, z: Pos)
    requires WellFormed(g) && Settled(g, z, |Offsets|) && g' == CheckWin(g)
    ensures WellFormed(g') && Settled(g', z, |Offsets|)
  {
  }

  /** Lines 125-139: visits the nine cells of the window of `z` in
      row-major order and hands each in-board one that is not yet revealed
      to HandleReveal (the centre is revealed by now and so skipped by the
      same test). Afterwards, while the game goes on, every in-board cell
      of the window is revealed or flagged. Around a safe zero cell of a
      correctly counted board the loop never loses the game. */
  method RevealNeighbours(g: Game, z: Pos) returns (g': Game)
    requires WellFormed(g) && z in g.board
    ensures Grows(g, g')
    ensures g.status == Playing || g' == g
    ensures Inv(g) ==> Inv(g')
    ensures Counted(g.board) && !g.board[z].isMine && g.board[z].adjacentMines == 0 ==>
      g'.status != Lost || g.status == Lost
    ensures Settled(g', z, |Offsets|)
    decreases |Cells(g.board, IsUnshown)|, 1
  {
    g' := g;
    var k := 0;
    while k < |Offsets|
      invariant 0 <= k <= |Offsets|
      invariant Grows(g, g')
      invariant g.status == Playing || g' == g
      invariant Inv(g) ==> Inv(g')
      invariant Counted(g.board) && !g.board[z].isMine && g.board[z].adjacentMines == 0 ==>
        g'.status != Lost || g.status == Lost
      invariant Settled(g', z, k)
    {
      var q := Shift(z, k);
      if InFrame(q, g'.cfg.rows, g'.cfg.cols) && !g'.board[q].isRevealed {
        var before := g';
        ShowsMoreKeeps(g.board, before.board);
        if Counted(g.board) && !g.board[z].isMine && g.board[z].adjacentMines == 0 {
          ZeroHasNoMineNear(g.board, z, q);
        }
        g' := HandleReveal(before, q);
        GrowsTrans(g, before, g');
        SettledStep(before, g', z, k);
      } else {
        SettledStep(g', g', z, k);
      }
      k := k + 1;
    }
  }

  /** While the game goes on, every in-board cell among the first `k` of
      the window of `z` is revealed or flagged. */
  ghost predicate Settled(g: Game, z: Pos, k: int)
    requires WellFormed(g) && 0 <= k <= |Offsets|
  {
    forall j :: 0 <= j < k && InFrame(Shift(z, j), g.cfg.rows, g.cfg.cols) ==>
      g.board[Shift(z, j)].isRevealed || g.board[Shift(z, j)].isFlagged || g.status != Playing
  }

  /** Settled survives further reveals and extends to the `k`-th cell once
      that cell is settled too. */
  lemma SettledStep(g: Game, g': Game, z: Pos, k: int)
    requires WellFormed(g) && 0 <= k < |Offsets| && Settled(g, z, k)
    requires g'.cfg == g.cfg && ShowsMore(g.board, g'.board)
    requires g.status == Playing || g'.status == g.status
    requires InFrame(Shift(z, k), g.cfg.rows, g.cfg.cols) ==>
      g'.board[Shift(z, k)].isRevealed || g'.board[Shift(z, k)].isFlagged || g'.status != Playing
    ensures Settled(g', z, k + 1)
  {
  }

  /** From `g` to `g'` the reveal handler has only revealed cells and
      possibly ended the game: the dimensions and the flag counter stand, no
      cell is hidden again, a finished game is left exactly as it was, and a
      game that became won did so with both counters at their targets. */
  ghost predicate Grows(g: Game, g': Game) {
    g'.cfg == g.cfg && g'.flaggedCount == g.flaggedCount &&
    ShowsMore(g.board, g'.board) &&
    |Cells(g'.board, IsUnshown)| <= |Cells(g.board, IsUnshown)| &&
    (g.status != Playing ==> g' == g) &&
    (g'.status == Won ==> g.status == Won || AtTarget(g'))
  }

  lemma GrowsTrans(g: Game, g1: Game, g2: Game)
    requires Grows(g, g1) && Grows(g1, g2)
    ensures Grows(g, g2)
  {
    ShowsMoreTrans(g.board, g1.board, g2.board);
  }

  lemma ShowsMoreTrans(b: Board, b1: Board, b2: Board)
    requires ShowsMore(b, b1) && ShowsMore(b1, b2)
    ensures ShowsMore(b, b2)
  {
  }

  /** Lines 145-159: once over, or on a revealed cell, a no-op. Otherwise
      the flag is toggled, the flag counter follows, and the win check runs. */
  function HandleFlag(g: Game, p: Pos): (g': Game)
    requires WellFormed(g) && p in g.board
    ensures g'.cfg == g.cfg && g'.revealedCount == g.revealedCount && g'.board.Keys == g.board.Keys
    ensures g.status != Playing || g.board[p].isRevealed ==> g' == g
    ensures g.status == Playing && !g.board[p].isRevealed ==>
      g'.board == g.board[p := g.board[p].(isFlagged := !g.board[p].isFlagged)] &&
      g'.flaggedCount == g.flaggedCount + (if g.board[p].isFlagged then -1 else 1) &&
      g'.status != Lost && (g'.status == Won <==> AtTarget(g'))
  {
    if g.status != Playing then g
    else
      var cell := g.board[p];
      if cell.isRevealed then g
      else if cell.isFlagged then
        CheckWin(g.(board := g.board[p := cell.(isFlagged := false)], flaggedCount := g.flaggedCount - 1))
      else
        CheckWin(g.(board := g.board[p := cell.(isFlagged := true)], flaggedCount := g.flaggedCount + 1))
  }

  /** Line 163: the "Mines left" figure, not clamped at zero. */
  function MinesLeft(g: Game): (left: int)
    ensures Inv(g) ==> left == g.cfg.mines - |Cells(g.board, IsFlagCell)|
    ensures Inv(g) ==> g.cfg.mines - g.cfg.rows * g.cfg.cols <= left <= g.cfg.mines
  {
    assert Inv(g) ==> g.flaggedCount <= g.cfg.rows * g.cfg.cols by {
      if Inv(g) {
        CellsAtMost(g.board, g.cfg.rows, g.cfg.cols, IsFlagCell);
      }
    }
    g.cfg.mines - g.flaggedCount
  }

  /** Lines 228-238: chooses the level, builds a blank board, places the
      mines drawn from `samples`, counts the neighbours and clears the
      counters and the end state. */
  method StartGame(level: string, prev: Dims, samples: seq<int>) returns (g: Game)
    requires Playable(prev)
    requires var d := SetDifficulty(level, prev);
      (forall i :: 0 <= i < |samples| ==> 0 <= samples[i] < d.rows * d.cols) && d.mines <= |Elems(samples)|
    ensures g.cfg == SetDifficulty(level, prev) && g.status == Playing
    ensures Inv(g) && Counted(g.board)
    ensures Cells(g.board, IsShown) == {} && Cells(g.board, IsFlagCell) == {}
  {
    var cfg := SetDifficulty(level, prev);
    var board := Blank(cfg.rows, cfg.cols);
    var positions, used;
    board, positions, used := PlaceMines(board, cfg, samples);
    board := CalculateAdjacent(board, cfg.rows, cfg.cols);
    assert Cells(board, IsShown) == {} && Cells(board, IsFlagCell) == {};
    g := Game(cfg, board, 0, 0, Playing);
  }

  // ---------------------------------------------------------------------------
  // Counter invariants and the win theorem
  // ---------------------------------------------------------------------------

  /** What the page keeps true between events: the board is framed and holds
      `totalMines` mines; the flag counter counts the flagged cells; until a
      loss the reveal counter counts the revealed cells, none of them a mine
      or flagged; after a loss every mine is revealed. */
  ghost predicate Inv(g: Game) {
    WellFormed(g) && Playable(g.cfg) && |MineSet(g.board)| == g.cfg.mines &&
    g.flaggedCount == |Cells(g.board, IsFlagCell)| &&
    (g.status != Lost ==>
      g.revealedCount == |Cells(g.board, IsShown)| &&
      MineSet(g.board) !! Cells(g.board, IsShown) &&
      Cells(g.board, IsFlagCell) !! Cells(g.board, IsShown)) &&
    (g.status == Lost ==> MineSet(g.board) <= Cells(g.board, IsShown))
  }

  /** Revealing cells moves neither the mines nor the flags. */
  lemma ShowsMoreKeeps(b: Board, b': Board)
    requires ShowsMore(b, b')
    ensures MineSet(b') == MineSet(b) && Cells(b', IsFlagCell) == Cells(b, IsFlagCell)
    ensures Cells(b, IsShown) <= Cells(b', IsShown)
    ensures Counted(b) ==> Counted(b')
  {
    assert forall p {:trigger b'[p]} :: p in b ==> b'[p].isMine == b[p].isMine && b'[p].isFlagged == b[p].isFlagged;
  }

  /** Win theorem of lines 217-225: in a game that is not lost, the two
      counters reach their targets exactly when every safe cell is revealed
      and the flags sit exactly on the mines. */
  lemma WinMeansCleared(g: Game)
    requires Inv(g) && g.status != Lost
    ensures AtTarget(g) <==>
      (Cells(g.board, IsShown) == g.board.Keys - MineSet(g.board) && Cells(g.board, IsFlagCell) == MineSet(g.board))
  {
    var all, mines := g.board.Keys, MineSet(g.board);
    var shown, flags := Cells(g.board, IsShown), Cells(g.board, IsFlagCell);
    AllCellsSize(g.cfg.rows, g.cfg.cols);
    assert |all - mines| == |all| - |mines| by {
      assert all == (all - mines) + mines;
    }
    assert shown <= all - mines;
    SubsetSize(shown, all - mines);
    assert flags <= all - shown + (mines * flags);
    if shown == all - mines {
      assert flags <= mines;
      SubsetSize(flags, mines);
    }
  }

  /** Revealing and counting one unrevealed, unflagged cell: one hidden
      cell fewer, nothing else on the board moves, and the invariant holds
      at once for a safe cell and after the loss reveal for a mine. */
  lemma FirstReveal(g: Game, p: Pos)
    requires WellFormed(g) && p in g.board && g.status == Playing
    requires !g.board[p].isRevealed && !g.board[p].isFlagged
    ensures var g1 := g.(board := g.board[p := g.board[p].(isRevealed := true)], revealedCount := g.revealedCount + 1);
      WellFormed(g1) && g1.board[p].isRevealed && Grows(g, g1) &&
      |Cells(g1.board, IsUnshown)| < |Cells(g.board, IsUnshown)| &&
      (Counted(g.board) ==> Counted(g1.board)) &&
      (Inv(g) ==> if g.board[p].isMine then Inv(EndGame(g1, false)) else Inv(g1))
  {
    var shown := g.board[p].(isRevealed := true);
    var g1 := g.(board := g.board[p := shown], revealedCount := g.revealedCount + 1);
    CellsAfterPut(g.board, p, shown, IsUnshown);
    CellsAfterPut(g.board, p, shown, IsShown);
    assert ShowsMore(g.board, g1.board);
    ShowsMoreKeeps(g.board, g1.board);
    if g.board[p].isMine {
      var g2 := EndGame(g1, false);
      ShowsMoreKeeps(g1.board, g2.board);
    }
  }

  /** The win check keeps the invariant. */
  lemma CheckWinKeepsInv(g: Game)
    requires Inv(g)
    ensures Inv(CheckWin(g))
  {
  }

  /** Lines 145-159 keep the invariant. */
  lemma FlagKeepsInv(g: Game, p: Pos)
    requires Inv(g) && p in g.board
    ensures Inv(HandleFlag(g, p))
  {
    var cell := g.board[p];
    if g.status == Playing && !cell.isRevealed {
      var g1 := g.(board := g.board[p := cell.(isFlagged := !cell.isFlagged)],
                   flaggedCount := g.flaggedCount + (if cell.isFlagged then -1 else 1));
      ToggleKeepsInv(g, p);
      CheckWinKeepsInv(g1);
      assert HandleFlag(g, p) == CheckWin(g1);
    }
  }

  /** Toggling the flag of an unrevealed cell of a running game and moving
      the flag counter with it keeps the invariant. */
  lemma ToggleKeepsInv(g: Game, p: Pos)
    requires Inv(g) && p in g.board && g.status == Playing && !g.board[p].isRevealed
    ensures var cell := g.board[p];
      Inv(g.(board := g.board[p := cell.(isFlagged := !cell.isFlagged)],
             flaggedCount := g.flaggedCount + (if cell.isFlagged then -1 else 1)))
  {
    ToggleSets(g.board, p);
  }

  /** Toggling the flag of an unrevealed cell moves that cell into or out
      of the flagged cells and leaves the mines and the revealed cells. */
  lemma ToggleSets(b: Board, p: Pos)
    requires p in b && !b[p].isRevealed
    ensures var b' := b[p := b[p].(isFlagged := !b[p].isFlagged)];
      MineSet(b') == MineSet(b) && Cells(b', IsShown) == Cells(b, IsShown) &&
      Cells(b', IsFlagCell) == (if b[p].isFlagged then Cells(b, IsFlagCell) - {p} else Cells(b, IsFlagCell) + {p}) &&
      |Cells(b', IsFlagCell)| == |Cells(b, IsFlagCell)| + (if b[p].isFlagged then -1 else 1)
  {
    var flipped := b[p].(isFlagged := !b[p].isFlagged);
    CellsAfterPut(b, p, flipped, IsMineCell);
    CellsAfterPut(b, p, flipped, IsShown);
    CellsAfterPut(b, p, flipped, IsFlagCell);
  }

  /** On a correctly counted board, a zero cell has no mine around it. */
  lemma ZeroHasNoMineNear(b: Board, z: Pos, q: Pos)
    requires Counted(b) && z in b && q in b && !b[z].isMine && b[z].adjacentMines == 0 && Near(z, q)
    ensures !b[q].isMine
  {
    assert |MinesNear(MineSet(b), z)| == 0;
    assert q in MineSet(b) ==> q in MinesNear(MineSet(b), z);
  }

  /** Two flag clicks on a cell restore the board and the flag counter,
      unless the first one won the game. */
  lemma FlagTwice(g: Game, p: Pos)
    requires WellFormed(g) && p in g.board
    requires HandleFlag(g, p).status == Playing
    ensures HandleFlag(HandleFlag(g, p), p).board == g.board
    ensures HandleFlag(HandleFlag(g, p), p).flaggedCount == g.flaggedCount
  {
  }

  /** Under the invariant the "Mines left" figure is the mine count less the
      flagged cells. */
  lemma MinesLeftCountsFlags(g: Game)
    requires Inv(g)
    ensures MinesLeft(g) == g.cfg.mines - |Cells(g.board, IsFlagCell)|
  {
  }
}

=== FILE: wrappers.dfy ===
/** The optional-value datatype used for inputs that may map to nothing. */
module Wrappers {

  datatype Option<+T> = None | Some(value: T)
}
